=== FILE: README.md ===
# Blob arena tick engine, modelled in Dafny

This project models the game-state core of a small multiplayer "eat or be eaten"
server (`app.py`). The server keeps two tables: `players`, a dictionary from
session id to a player record (position, size, name, colour, movement target), and
`food`, a list of pellets. Three inbound commands change the player table:
`join`, `player_move` and `disconnect`. A background loop runs a *tick* about 30
times per second. Each tick has five stages:

1. every player moves towards its target, with a speed that falls as it grows, and
   is clamped to the map;
2. players eat the pellets they overlap, first claimant in table order wins;
3. players eat each other, visiting the pairs (i, j) with i < j in table order;
4. eaten players are removed;
5. eaten pellets are dropped and the list is refilled to `FOOD_COUNT`.

Modules, one per part of the program:

- `Config`: the constants of app.py:8-14, plus the literals the code uses inline
  (pellet growth 0.2, overlap divisor 3, radius margin 0.8, name length 15, default
  name "Blob").
- `Entities`: player and pellet records, `Mass` (total size of a table) and a few
  counting helpers.
- `Geometry`: the distance test without square roots, and `Clamp`.
- `Rosters`: the `players` dictionary as a map together with its insertion order.
  Python dictionaries iterate in insertion order, and stages 2 and 3 depend on that
  order.
- `Intake`: `join`, `player_move` and `disconnect`.
- `Movement`: Stage 1.
- `Grazing`: Stage 2, with a closed form: pellet j goes to the first player in table
  order that reaches it.
- `Predation`: Stage 3, with a log of eats and the laws the log obeys.
- `Pantry`: `generate_food`, start-up food, and Stage 5.
- `Engine`: the whole tick over the world, and what it preserves.
- `Scenarios`: small concrete situations.

How the model treats the parts that are not pure logic:

- **Randomness.** `random.uniform`, `random.randint` and `get_random_color` become
  parameters. A join takes its spawn position and colour as arguments. Food
  generation takes a function `draw: nat -> Draw`, where `draw(k)` is the k-th new
  pellet. `Pantry.Fair` states the ranges the source draws from.
- **Square roots.** Every distance comparison `sqrt(dx*dx + dy*dy) < t` is decided
  exactly as `0 < t && dx*dx + dy*dy < t*t` (`Geometry.Within`).
  `Geometry.WithinMeansCloser` proves the two tests agree. The square root in
  Stage 1's normalisation is a parameter `norm`.
- **`math.log1p`.** It is a parameter. `Movement.Speed` assumes only that it is
  positive on positive arguments; `Movement.SpeedFallsWithSize` also assumes that it
  is non-decreasing.
- **Numbers.** Sizes and coordinates are mathematical reals. The source's integer
  constants and the integer 0 stored as a target coincide with their real values.
- **Table order.** `Roster(entries, order)` keeps the keys in insertion order.
  Assigning to an existing key keeps its place, a new key goes last, and `pop`
  removes it.

Where a reader might expect otherwise, app.py behaves as follows, and so does the
model:

- The name defaults to "Blob" only when the `name` key is absent (app.py:80). An
  empty name stays empty.
- A second `join` from the same session replaces the player in place
  (app.py:94); nothing refuses it.
- The map bounds are enforced only in Stage 1 (app.py:144-145). Growth in stages 2 and 3 can push a
  player that touches an edge past it, and the state broadcast at the end of the
  tick shows that (`Scenarios.GrowthLeavesMap`). So the bounds hold right after
  movement (`Movement.AdvanceBounds`), not for every broadcast state. The next
  tick's clamp pulls such a player back, even when it stands still.
- In Stage 2 a player's radius is read once, before its pellet loop (app.py:151).
  Pellets it eats in that loop make it grow, but the larger size does not widen its
  reach until the next tick.
- The check `if sid in players_to_remove` at app.py:149 never fires, because the set
  is still empty during Stage 2. The model leaves it out.

## Model

| member | source | states |
|---|---|---|
| Geometry.Within | app.py:46-49 | The square-free distance test: a point that passes it has a positive threshold and lies strictly inside the square of half-side `t` on each axis. `Geometry.WithinMeansCloser` ties it to the true distance. |
| Geometry.WithinMeansCloser | app.py:46-49 | For any d with d ≥ 0 and d² = dx² + dy² (the Euclidean distance), `Within(dx, dy, t)` holds exactly when d < t. This holds in both directions, so the square-root-free test decides every distance comparison of the source. |
| Geometry.Clamp | app.py:144-145 | `max(lo, min(hi, v))` is never below `lo`, never above `hi` when the interval is non-empty, leaves a value already inside unchanged, and returns the violated bound otherwise. |
| Rosters.Without | app.py:192-193 | Dropping a set of keys from the order keeps exactly the other keys, keeps them free of duplicates, and changes nothing when none of them is present. |
| Rosters.Put | app.py:94 | Dictionary assignment stores the record under its key, leaves every other entry untouched, keeps an existing key in its place, appends a new key last, and keeps the table consistent. |
| Rosters.Pop | app.py:71 | `pop(sid, None)` removes the key if present, leaves every other entry, and is a no-op for an absent key. On a consistent table it removes the key from the order and nothing else. |
| Rosters.RemoveAll | app.py:190-193 | Removing a set of sessions keeps exactly the entries outside the set, unchanged, and keeps the table consistent. |
| Rosters.PopEach | app.py:192-193 | The Stage 4 loop over any iteration order of the set: the sessions listed are gone afterwards, every other player stays with its record unchanged, and the table stays consistent. |
| Rosters.PopEachIsRemoveAll | app.py:190-193 | Popping the eaten sessions one by one, in any iteration order of the set, gives the same table as removing the whole set at once. So the unspecified set order of Stage 4 does not matter. |
| Rosters.MassAfterRemoval | app.py:190-193 | The total size of the table after removing a set equals the total size of the original table with that set skipped. |
| Intake.Truncate | app.py:80 | `s[:n]` is a prefix of `s` of length at most n. It is `s` itself when `s` is short enough, and exactly n long otherwise. |
| Intake.Join | app.py:76-94 | The joining session gets a player with its own id, the drawn position and colour, size 20, target (0, 0), and a name of at most 15 characters. The name is "Blob" when the field is absent, otherwise the first 15 characters of the given name. Every other player is unchanged, a new session is appended to the table order, and a spawn drawn in the documented range lies within the map bounds. |
| Intake.Steer | app.py:106-113 | A known session gets target (x, y), with a missing coordinate read as 0. Nothing else about it or any other player changes, and an unknown session leaves the table as it was. |
| Intake.Disconnect | app.py:67-74 | The session is absent afterwards and every other player is unchanged. A session already absent leaves the table as it was, so a second disconnect changes nothing. |
| Movement.Speed | app.py:138 | For any `log1p` positive on positive arguments, the speed of a positive-size player lies strictly between 0 and `PLAYER_SPEED_FACTOR`. |
| Movement.SpeedFallsWithSize | app.py:138 | For any non-decreasing `log1p`, a larger player is never faster than a smaller one. |
| Movement.Heading | app.py:124-135 | A target vector of magnitude at most 1 gives no movement. Otherwise the heading is the target divided by its magnitude, which is a unit vector when `norm` is the true Euclidean norm. |
| Movement.Step | app.py:123-145 | Only the position changes. The new position is never below size/2, and it is at most extent − size/2 whenever the player fits on the map. In the dead zone, each coordinate is only clamped to [size/2, extent − size/2]. This holds also for a player that growth pushed past an edge, which is pulled back. A player in the dead zone that is already in bounds stays where it is. |
| Movement.Advance | app.py:123-145 | Stage 1 keeps the table order and the set of keys, changes only positions, and keeps the table consistent. |
| Movement.AdvanceBounds | app.py:130-145 | Right after Stage 1, every player that fits on the map is within bounds, and no player is past the lower edges. A player in the dead zone was only clamped, so one that was already in bounds has not moved. |
| Grazing.Reaches | app.py:151-156 | The pellet test: only a player whose radius exceeds a third of the pellet's size reaches it, and then, for a pellet of non-negative size, the player's centre is within its radius of the pellet's centre on each axis. |
| Grazing.GrazeFrom | app.py:152-158 | One player's pellet loop only adds to the eaten set and, with pellets of non-negative size, never shrinks the player. `Grazing.GrazeFromClosedForm` states exactly what it adds. |
| Grazing.Graze | app.py:148-158 | Stage 2 keeps the set of players. `Grazing.GrazeClosedForm` gives its result. |
| Grazing.FirstClaimant | app.py:148-158 | The first player in table order that reaches a pellet. It is absent exactly when no player reaches the pellet. When present, that player reaches the pellet and no earlier player does. |
| Grazing.Harvest | app.py:157 | What a player wins from a run of pellets is never negative when pellet sizes are non-negative. |
| Grazing.GrazeClosedForm | app.py:147-158 | After Stage 2, pellet j is eaten exactly when some player reaches it. Every player's size is its old size plus 0.2 times the sizes of the pellets it reached first, and nothing else changes. |
| Grazing.GrazeNeverShrinks | app.py:147-158 | Stage 2 changes only sizes and never shrinks a player, so positive sizes stay positive. It marks only indices of the pellet list. |
| Grazing.TurnKeepsAfterTurns | app.py:149-158 | One player's turn extends the closed form from the first k players to the first k + 1. |
| Grazing.GrazeInvariant | app.py:148-158 | After any number of player turns, sizes and eaten indices match the closed form restricted to the players whose turn has come. |
| Grazing.GainIsHarvest | app.py:152-158 | One player's turn, which skips pellets already eaten, gains exactly what the closed form credits it. |
| Grazing.CreditedOnce | app.py:157-158 | Summed over all players, the credited growth is exactly one share per reachable pellet. No pellet is credited twice. |
| Grazing.GrazeMass | app.py:147-158 | The total size after Stage 2 is the total before plus the growth of the pellets somebody reached. |
| Grazing.GrazeMassCounted | app.py:147-158 | With pellets of size 8, Stage 2 raises the total size by 0.2 × 8 for every eaten pellet. |
| Grazing.HandoutCountsPellets | app.py:157 | With pellets of size 8, that growth is 0.2 × 8 times the number of pellets eaten. |
| Grazing.WonCountsIndices | app.py:158 | The number of eaten pellets equals the size of the set of eaten indices. |
| Grazing.HarvestCountsPellets | app.py:157 | With pellets of size 8, a player's gain is 0.2 × 8 times the number of pellets it won. |
| Predation.Devours | app.py:173-178 | The eating test, used in both directions (app.py:183): an eater is always strictly larger than its victim. So of two players at most one can eat the other. |
| Predation.Feast | app.py:180-186 | One eat: the victim's whole size moves to the eater, the victim is marked removed, the eat is logged last with both sizes as they were, and no other player changes. |
| Predation.Visit | app.py:169-188 | One visited pair: when B is still in the game and A can eat B, A eats B; when B can eat A, B eats A; when B was removed or neither can eat the other, nothing changes. |
| Predation.Pursue | app.py:168-188 | The inner loop keeps the set of players and only appends to the eat log. It either changes nothing or logs at least one eat. |
| Predation.Fight | app.py:163-166 | The outer loop keeps the set of players and only appends to the eat log. It either changes nothing or logs at least one eat. |
| Predation.Contest | app.py:161-188 | Stage 3 keeps the set of players, and a pass that eats nobody changes nothing. |
| Predation.VictimsNamed | app.py:181 | A player is among the victims exactly when some eat of the log names it as victim. |
| Predation.FeastKeepsInv | app.py:178-186 | One eat keeps the pass invariant. Each size is the starting size plus what the player ate, the removed set is the set of victims, every eat is lawful, and the total size of the players not removed is unchanged. |
| Predation.VisitKeepsInv | app.py:169-188 | Visiting one pair keeps the pass invariant, whichever of the three branches is taken. |
| Predation.PursueKeeps | app.py:168-188 | Any property of the pass state that every visit of a pair preserves still holds after the whole inner loop, including its early exit once A is eaten. |
| Predation.PursueKeepsInv | app.py:168-188 | The inner loop, including its early exit once A is eaten, keeps the pass invariant. |
| Predation.FightKeepsInv | app.py:163-188 | The outer loop, which skips players already removed, keeps the pass invariant. |
| Predation.ContestLaws | app.py:160-188 | After Stage 3, only sizes have changed. Each final size is the starting size plus the sizes of the players eaten. The removed players are exactly the victims and are all listed in the table. Every eat was lawful at the moment it happened, and the total size of the players not removed equals the total before the stage. |
| Predation.EatLaw | app.py:178-186 | In every eat, the eater's size at that moment is more than 1.1 times the victim's, and the pair is within the eating distance. The eater's size then includes what it ate earlier in the pass, and it grows by exactly the victim's size. |
| Predation.EatLawAt | app.py:178-186 | The same law for the k-th eat of any lawful log. |
| Predation.EatenOnce | app.py:166-172 | No player is eaten twice, and no eaten player eats afterwards in the same pass. |
| Predation.ChronicleAt | app.py:178-186 | Each eat of a lawful log is lawful given the eats before it. |
| Predation.SpoilsNonNegative | app.py:180-185 | With positive starting sizes, no player gains a negative amount in Stage 3. |
| Predation.ContestNeverShrinks | app.py:160-188 | Stage 3 never makes a player smaller. |
| Predation.PursueQuiet | app.py:168-188 | The inner loop for A changes nothing exactly when no later B still in the game can eat A or be eaten by it. |
| Predation.FightQuiet | app.py:163-188 | The pass from a position on changes nothing exactly when no pair of players still in the game, both at that position or later, passes the test in either direction. |
| Predation.ContestQuiet | app.py:161-188 | Stage 3 eats nobody exactly when no pair of the table passes the test, in either direction, at the starting sizes. |
| Predation.PursueSkip | app.py:168-188 | Visits of pairs that do not pass the test leave the inner loop's result unchanged. |
| Predation.FightSkip | app.py:163-188 | Turns of players that can neither eat nor be eaten by any later player leave the pass's result unchanged. |
| Predation.ContestFirstEat | app.py:163-186 | The first eat of Stage 3 is at the first pair (i, j), in visiting order, that passes the test at the starting sizes. A eats B when A can, and otherwise B eats A, each at its starting size. |
| Pantry.Spawn | app.py:35-41 | A new pellet has size 8. When its draw lies in the documented ranges, it lies on the map and its id is a five-digit number. |
| Pantry.GenerateFood | app.py:31-41 | Food generation only appends. It leaves a list of 150 or more pellets unchanged, brings a shorter list to exactly 150, and the k-th new pellet is built from the k-th draw. |
| Pantry.InitialFood | app.py:52 | At start-up there are exactly 150 pellets of size 8. When the draws are fair, the list is fully stocked: every pellet is also on the map. |
| Pantry.Keep | app.py:202 | The filtered list from index i on is no longer than the part of the list it filters; `Pantry.KeepIsKept` equates it with the pellets at the indices `Pantry.Kept` lists. |
| Pantry.Kept | app.py:202 | The surviving indices are strictly increasing. An index is among them exactly when it is a valid index that was not eaten. |
| Pantry.KeepIsKept | app.py:202 | The filtered list is exactly the pellets at the surviving indices, in the same order. |
| Pantry.KeptCount | app.py:202 | When every eaten index is valid, the list shrinks by exactly the number of eaten pellets. |
| Pantry.Restock | app.py:200-203 | With nothing eaten, the food list is untouched. Otherwise a list of at most 150 comes back with exactly 150. |
| Pantry.RestockLaws | app.py:200-203 | Stage 5 leaves the surviving pellets in their old order, followed by fresh draws, and the surviving count is the old count minus the eaten count. |
| Pantry.RestockKeepsStocked | app.py:200-203 | A full list of size-8 pellets on the map is full again after Stage 5, with every pellet still of size 8 and on the map, when the draws are fair. |
| Engine.InitialWorld | app.py:24-25 | The starting world has no players and 150 pellets. With fair draws it is well formed. |
| Engine.Tick | app.py:116-203 | After a tick, the players are exactly those that were there minus the eaten ones. The food list is untouched when no pellet was eaten. |
| Engine.Fights | app.py:147-188 | Stages 2 and 3 keep the set of keys of the moved table. |
| Engine.Settle | app.py:147-203 | After stages 2 to 5, the players are exactly the moved ones minus the eaten ones. The food list is untouched when no pellet was eaten. |
| Engine.FightsLaws | app.py:147-188 | Stages 2 and 3 change only sizes and never shrink a player. Stage 2 eats only pellets of the list. Stage 3 removes only players at the table. The total size of the players not removed is the total before plus 0.2 × 8 per eaten pellet. |
| Engine.SettleKeepsWellFormed | app.py:147-203 | With fair draws, stages 2 to 5 keep the table consistent with positive sizes, and the food list full of size-8 pellets on the map. |
| Engine.SettleLaws | app.py:147-203 | After stages 2 to 5, a survivor differs from its moved self only in a size that has not shrunk. The eaten players were at the table, the survivors keep their order, and the total size grows by 0.2 × 8 per eaten pellet. |
| Engine.TickKeepsWellFormed | app.py:116-203 | A tick keeps the world well formed when the draws are fair. The table stays consistent, sizes stay positive, and the food list is back at 150 pellets of size 8 on the map. |
| Engine.TickLaws | app.py:116-203 | A player that survives a tick was there before. It kept its name, colour and target, sits where Stage 1 put it, and has not shrunk. The eaten players were at the table and the survivors keep their relative order. The total size after the tick is the total before plus 0.2 × 8 for every pellet eaten: players eaten by players add and remove nothing. |
| Scenarios.PelletEaten | app.py:151-157 | A player of size 20 on top of a pellet eats it and reaches size 21.6. |
| Scenarios.GrowthLeavesMap | app.py:144-157 | A player touching the edge that eats a pellet ends up past the edge. |
| Scenarios.LargerEatsSmaller | app.py:178-181 | A player of size 100 eats one of size 50 that is 20 units away and reaches size 150. |
| Scenarios.EqualsDoNotEat | app.py:178-186 | Two players of equal size, wherever they stand, cannot eat each other, and a Stage 3 pass over just the two of them leaves the table, the removed set and the eat log as they were. |
| Scenarios.GrowthFeedsTheChain | app.py:178-181 | Growth is visible within the pass. A player of size 100 eats one of 50, and then, at size 150, eats one of 130 that it could not have eaten at 100. |
| Scenarios.StraightRun | app.py:124-145 | A target (10, 0) moves a player in the middle of the map by exactly its speed along x. |

## Left out

- The Flask routes, the Socket.IO transport, every `emit`, `print`, `socketio.sleep`
  and the `while True` loop itself are I/O. A tick is one call of `Engine.Tick`.
  `handle_connect` does nothing to the state.
- `get_random_color`, `random.uniform` and `random.randint` are parameters. Their
  distributions are not modelled.
- Pellet ids are not required to be unique, and neither is anything else about
  them. The source's ids can collide.
- Floating-point rounding is not modelled: sizes and positions are mathematical
  reals. `math.sqrt` and `math.log1p` are parameters, or are eliminated exactly
  (distance tests).
- Movement.Heading: a target stored by `handle_player_move` (app.py:112-113) is squared at
  app.py:127. A finite float whose square overflows (magnitude above about 1.34e154),
  or an integer too large to convert to a float for `math.sqrt`, makes Stage 1
  raise `OverflowError`. The exception leaves `game_loop` (started at app.py:216),
  so the players already visited in that Stage 1 loop have moved and no later tick
  runs. Python's `json` also accepts `Infinity`, `-Infinity` and `NaN`, and
  app.py:112-113 stores them unchanged. For an infinite target component of
  either sign, app.py:127 gives an infinite distance without raising. That passes
  the test at app.py:130, so app.py:131-132 gives that axis the direction
  `inf/inf = nan`, and the other, finite axis the direction 0. Python's `min` at
  app.py:144-145 keeps its first argument against `nan`, so that coordinate lands
  on its upper bound: the right edge for x and the bottom edge for y, whatever
  the sign. A `NaN` in either component makes the distance `NaN`, which fails
  `> 1` at app.py:130, so the player is treated as in the dead zone and is only
  clamped. Coordinates here are unbounded reals and `norm` is total, so the model
  never raises and represents none of these non-finite cases.
- Payload fields of the wrong type (a number as `name`, a string as `x`) make the
  source raise or misbehave. The model takes a string name and real coordinates.
- Concurrency between the loop and the event handlers is not modelled. Commands and
  ticks are separate, atomic steps.
- The `player_eaten` notification carries no eater id in the source. The model's
  eat log records the eater, but nothing is broadcast.
- `Engine.SessionEventsKeepWellFormed` has no row above. It follows directly from
  the contracts in `Intake` and adds nothing of its own.

=== FILE: config.dfy ===
/** World constants of the arena (app.py:8-14) and the fixed factors used by the
    tick stages. Integers of the source are written as reals where they take
    part in position and size arithmetic. */
module Config {

  const MapWidth: real := 2000.0
  const MapHeight: real := 2000.0
  const InitialPlayerSize: real := 20.0
  const FoodCount: nat := 150
  const FoodSize: real := 8.0
  const PlayerSpeedFactor: real := 8.0
  /** A player must be more than this many times larger than its prey. */
  const EatRatio: real := 1.1

  /** Share of a pellet's size that the eater gains (app.py:157). */
  const FoodGrowth: real := 0.2
  /** A pellet is eaten when the player overlaps it by more than size / FoodOverlap (app.py:156). */
  const FoodOverlap: real := 3.0
  /** Discount on the defender's radius in the player-eating test (app.py:178, 183). */
  const RadiusMargin: real := 0.8

  /** Longest display name kept at join (app.py:80). */
  const MaxNameLength: nat := 15
  const DefaultName: string := "Blob"
}

=== FILE: engine.dfy ===
/** One iteration of `game_loop` (app.py:116-203), and the session events seen from
    the whole world. A tick runs Stage 1 (movement), Stage 2 (pellets), Stage 3
    (players), Stage 4 (removal of the eaten players) and Stage 5 (food refill) in
    this order, each stage seeing the result of the one before. */
module Engine {
  import opened Config
  import opened Optional
  import opened Entities
  import opened Rosters
  import opened Intake
  import opened Movement
  import opened Grazing
  import opened Predation
  import opened Pantry

  /** The module-level state of the server: `players` and `food` (app.py:24-25). */
  datatype World = World(players: Roster, food: seq<Food>)

  /** A tick's result: the world after it, the players removed in Stage 4 and the
      pellet indices eaten in Stage 2 (`players_to_remove`, `food_eaten_indices`). */
  datatype Outcome = Outcome(world: World, devoured: set<SessionId>, grazed: set<nat>)

  /** The intermediate tables: after Stage 2 and after Stage 3. */
  datatype Stages = Stages(fed: Feeding, fought: Melee)

  /** The shape every reachable world keeps: a consistent table of players with
      positive sizes, and exactly FOOD_COUNT pellets of size FOOD_SIZE on the map. */
  predicate WellFormed(w: World) {
    && Valid(w.players)
    && PositiveSizes(w.players.entries)
    && Stocked(w.food)
  }

  /** The world at start-up (app.py:24-25, 52): nobody connected, the food list filled. */
  function InitialWorld(draw: nat -> Draw): (w: World)
    ensures w.players.entries == map[] && |w.food| == FoodCount
    ensures (forall k: nat :: Fair(draw(k))) ==> WellFormed(w)
  {
    World(Roster(map[], []), InitialFood(draw))
  }

  /** Stages 2 and 3 (app.py:147-188) over a table as Stage 1 left it. */
  function Fights(moved: Roster, food: seq<Food>): (st: Stages)
    requires Valid(moved)
    ensures st.fed.ps.Keys == st.fought.ps.Keys == moved.entries.Keys
  {
    var fed := Graze(moved.order, 0, moved.entries, food, {});
    Stages(fed, Contest(moved.order, fed.ps))
  }

  /** Stages 2 to 5 (app.py:147-203) over a table as Stage 1 left it. Stage 4 pops
      the eaten players in whatever order the set yields, which is the same as
      removing them all at once (`Rosters.PopEachIsRemoveAll`); Stage 5 runs only
      when a pellet was eaten. */
  function Settle(moved: Roster, food: seq<Food>, draw: nat -> Draw): (o: Outcome)
    requires Valid(moved)
    ensures forall s :: s in o.world.players.entries <==> s in moved.entries && s !in o.devoured
    ensures o.grazed == {} ==> o.world.food == food
  {
    var st := Fights(moved, food);
    Outcome(
      World(RemoveAll(Roster(st.fought.ps, moved.order), st.fought.removed), Restock(food, st.fed.eaten, draw)),
      st.fought.removed,
      st.fed.eaten)
  }

  /** One tick (app.py:120-203): Stage 1, then the rest on the moved table. */
  function Tick(w: World, norm: (real, real) -> real, log1p: real -> real, draw: nat -> Draw): (o: Outcome)
    requires Valid(w.players) && PositiveSizes(w.players.entries) && PositiveOnPositives(log1p)
    ensures forall s :: s in o.world.players.entries <==> s in w.players.entries && s !in o.devoured
    ensures o.grazed == {} ==> o.world.food == w.food
  {
    Settle(Advance(w.players, norm, log1p), w.food, draw)
  }

  // ---------------------------------------------------------------------------
  // Stages 2 to 5 on any consistent table with positive sizes.
  // ---------------------------------------------------------------------------

  /** Stages 2 and 3 change only sizes and never shrink anybody; Stage 2 eats only
      pellets of the list, and Stage 3 removes only players of the table and keeps
      the total size. */
  lemma FightsLaws(moved: Roster, food: seq<Food>)
    requires Valid(moved) && PositiveSizes(moved.entries) && Stocked(food)
    ensures var st := Fights(moved, food);
      var ids := moved.order;
      && (forall s :: s in moved.entries ==>
            && st.fought.ps[s] == moved.entries[s].(size := st.fought.ps[s].size)
            && moved.entries[s].size <= st.fed.ps[s].size <= st.fought.ps[s].size)
      && (forall j :: j in st.fed.eaten ==> j < |food|)
      && (forall s :: s in st.fought.removed ==> s in ids)
      && Mass(ids, st.fought.ps, st.fought.removed) == Mass(ids, moved.entries, {}) + FoodGrowth * FoodSize * |st.fed.eaten| as real
  {
    var st := Fights(moved, food);
    var ids := moved.order;
    GrazeNeverShrinks(ids, moved.entries, food);
    GrazeMassCounted(ids, moved.entries, food);
    ContestLaws(ids, st.fed.ps);
    ContestNeverShrinks(ids, st.fed.ps);
  }

  /** Stages 2 to 5 keep the table consistent with positive sizes and the food list
      full, provided the draws are fair. */
  lemma SettleKeepsWellFormed(moved: Roster, food: seq<Food>, draw: nat -> Draw)
    requires Valid(moved) && PositiveSizes(moved.entries) && Stocked(food)
    requires forall k: nat :: Fair(draw(k))
    ensures var o := Settle(moved, food, draw);
      Valid(o.world.players) && PositiveSizes(o.world.players.entries) && Stocked(o.world.food)
  {
    var st := Fights(moved, food);
    FightsLaws(moved, food);
    assert Valid(Roster(st.fought.ps, moved.order));
    RestockKeepsStocked(food, st.fed.eaten, draw);
  }

  /** Stages 2 to 5 leave the survivors as they were apart from a size that did not
      shrink, in the same relative order, and add 0.2 * FOOD_SIZE to the total size
      for every eaten pellet. */
  lemma SettleLaws(moved: Roster, food: seq<Food>, draw: nat -> Draw)
    requires Valid(moved) && PositiveSizes(moved.entries) && Stocked(food)
    ensures var o := Settle(moved, food, draw);
      && (forall s :: s in o.world.players.entries ==>
            && o.world.players.entries[s] == moved.entries[s].(size := o.world.players.entries[s].size)
            && moved.entries[s].size <= o.world.players.entries[s].size)
      && o.devoured <= moved.entries.Keys
      && o.world.players.order == Without(moved.order, o.devoured)
      && RosterMass(o.world.players) == RosterMass(moved) + FoodGrowth * FoodSize * |o.grazed| as real
  {
    var st := Fights(moved, food);
    FightsLaws(moved, food);
    MassAfterRemoval(moved.order, st.fought.ps, st.fought.removed);
  }

  // ---------------------------------------------------------------------------
  // The tick as a whole.
  // ---------------------------------------------------------------------------

  /** A tick keeps the world well formed: the table stays consistent, sizes stay
      positive, and the food list is back at FOOD_COUNT pellets of FOOD_SIZE on the
      map, provided the random draws lie in their documented ranges. */
  lemma TickKeepsWellFormed(w: World, norm: (real, real) -> real, log1p: real -> real, draw: nat -> Draw)
    requires WellFormed(w) && PositiveOnPositives(log1p)
    requires forall k: nat :: Fair(draw(k))
    ensures WellFormed(Tick(w, norm, log1p, draw).world)
  {
    var moved := Advance(w.players, norm, log1p);
    assert PositiveSizes(moved.entries);
    SettleKeepsWellFormed(moved, w.food, draw);
  }

  /** Survivors of a tick: they were at the table before, kept their name, colour
      and target, sit where Stage 1 put them, and did not shrink. The eaten players
      were at the table, the survivors keep their relative order, and the total size
      grows by 0.2 * FOOD_SIZE for every eaten pellet: eaten players move their whole
      size to their eater, so they add and remove nothing. */
  lemma TickLaws(w: World, norm: (real, real) -> real, log1p: real -> real, draw: nat -> Draw)
    requires WellFormed(w) && PositiveOnPositives(log1p)
    ensures var o := Tick(w, norm, log1p, draw);
      var moved := Advance(w.players, norm, log1p);
      && (forall s :: s in o.world.players.entries ==>
            && s in w.players.entries
            && o.world.players.entries[s] == moved.entries[s].(size := o.world.players.entries[s].size)
            && o.world.players.entries[s] == w.players.entries[s].(x := moved.entries[s].x, y := moved.entries[s].y, size := o.world.players.entries[s].size)
            && w.players.entries[s].size <= o.world.players.entries[s].size)
      && o.devoured <= w.players.entries.Keys
      && o.world.players.order == Without(w.players.order, o.devoured)
      && RosterMass(o.world.players) == RosterMass(w.players) + FoodGrowth * FoodSize * |o.grazed| as real
  {
    var moved := Advance(w.players, norm, log1p);
    assert PositiveSizes(moved.entries);
    SettleLaws(moved, w.food, draw);
    MassCongruent(w.players.order, w.players.entries, {}, moved.entries, {});
  }

  // ---------------------------------------------------------------------------
  // Session events against the world.
  // ---------------------------------------------------------------------------

  /** Joining, steering and disconnecting keep the world well formed; joining adds
      the joining session, disconnecting removes it, steering keeps the table's keys. */
  lemma SessionEventsKeepWellFormed(w: World, sid: SessionId, name: Option<string>, x: real, y: real, color: string, tx: Option<real>, ty: Option<real>)
    requires WellFormed(w)
    ensures WellFormed(World(Join(w.players, sid, name, x, y, color), w.food))
    ensures WellFormed(World(Steer(w.players, sid, tx, ty), w.food))
    ensures WellFormed(World(Disconnect(w.players, sid), w.food))
  {
  }
}

=== FILE: entities.dfy ===
/** The records of the world: players keyed by their session, and food pellets. */
module Entities {
  import opened Config

  /** Opaque per-connection identifier chosen by the transport, never by the game. */
  type SessionId = string

  /** One entry of the `players` dictionary (app.py:84-93). */
  datatype Player = Player(
    id: SessionId,
    name: string,
    x: real,
    y: real,
    size: real,
    color: string,
    targetX: real,
    targetY: real)

  /** One element of the `food` list (app.py:35-41). */
  datatype Food = Food(id: int, x: real, y: real, size: real, color: string)

  /** The whole disc of `p` lies on the map: each coordinate is in [size/2, extent - size/2]. */
  predicate InBounds(p: Player) {
    && p.size / 2.0 <= p.x <= MapWidth - p.size / 2.0
    && p.size / 2.0 <= p.y <= MapHeight - p.size / 2.0
  }

  predicate NoDuplicates<T(==)>(s: seq<T>) {
    forall i, j :: 0 <= i < j < |s| ==> s[i] != s[j]
  }

  /** Dropping the head of a list without repeats leaves a list without repeats. */
  lemma NoDuplicatesTail<T>(s: seq<T>)
    requires s != [] && NoDuplicates(s)
    ensures NoDuplicates(s[1..])
  {
    forall i, j | 0 <= i < j < |s[1..]| ensures s[1..][i] != s[1..][j] {
      assert s[1..][i] == s[i + 1] && s[1..][j] == s[j + 1];
    }
  }

  predicate PositiveSizes(ps: map<SessionId, Player>) {
    forall s :: s in ps ==> 0.0 < ps[s].size
  }

  /** What session `s` adds to a mass total: its size, or nothing when it is absent or skipped. */
  function Weight(ps: map<SessionId, Player>, skip: set<SessionId>, s: SessionId): real {
    if s in ps && s !in skip then ps[s].size else 0.0
  }

  /** Total size of the players listed in `ids`, leaving out those in `skip`. */
  function Mass(ids: seq<SessionId>, ps: map<SessionId, Player>, skip: set<SessionId>): real {
    if ids == [] then 0.0 else Weight(ps, skip, ids[0]) + Mass(ids[1..], ps, skip)
  }

  /** Two weightings that agree on every listed session give the same mass. */
  lemma {:induction false} MassCongruent(
    ids: seq<SessionId>,
    ps1: map<SessionId, Player>, skip1: set<SessionId>,
    ps2: map<SessionId, Player>, skip2: set<SessionId>)
    requires forall k :: 0 <= k < |ids| ==> Weight(ps1, skip1, ids[k]) == Weight(ps2, skip2, ids[k])
    ensures Mass(ids, ps1, skip1) == Mass(ids, ps2, skip2)
  {
    if ids != [] {
      assert Weight(ps1, skip1, ids[0]) == Weight(ps2, skip2, ids[0]);
      forall k | 0 <= k < |ids[1..]|
        ensures Weight(ps1, skip1, ids[1..][k]) == Weight(ps2, skip2, ids[1..][k])
      {
        assert ids[1..][k] == ids[k + 1];
      }
      MassCongruent(ids[1..], ps1, skip1, ps2, skip2);
    }
  }

  /** Changing the weight of one session listed once changes the mass by exactly that difference. */
  lemma {:induction false} MassChange(
    ids: seq<SessionId>,
    ps1: map<SessionId, Player>, skip1: set<SessionId>,
    ps2: map<SessionId, Player>, skip2: set<SessionId>,
    a: SessionId)
    requires NoDuplicates(ids) && a in ids
    requires forall s :: s != a ==> Weight(ps1, skip1, s) == Weight(ps2, skip2, s)
    ensures Mass(ids, ps2, skip2) == Mass(ids, ps1, skip1) + Weight(ps2, skip2, a) - Weight(ps1, skip1, a)
  {
    var rest := ids[1..];
    NoDuplicatesTail(ids);
    if ids[0] == a {
      forall k | 0 <= k < |rest| ensures Weight(ps1, skip1, rest[k]) == Weight(ps2, skip2, rest[k]) {
        assert rest[k] == ids[k + 1] && ids[k + 1] != ids[0];
      }
      MassCongruent(rest, ps1, skip1, ps2, skip2);
    } else {
      assert a in rest by {
        var k :| 0 <= k < |ids| && ids[k] == a;
        assert rest[k - 1] == a;
      }
      MassChange(rest, ps1, skip1, ps2, skip2, a);
    }
  }

  /** Number of set flags from position i on. */
  function Count(flags: seq<bool>, i: nat): nat
    decreases |flags| - i
  {
    if i >= |flags| then 0 else (if flags[i] then 1 else 0) + Count(flags, i + 1)
  }

  /** Positions from i on whose flag is set. */
  function Marked(flags: seq<bool>, i: nat): set<nat> {
    set j: nat | i <= j < |flags| && flags[j]
  }

  lemma {:induction false} CountMarked(flags: seq<bool>, i: nat)
    ensures |Marked(flags, i)| == Count(flags, i)
    decreases |flags| - i
  {
    if i < |flags| {
      CountMarked(flags, i + 1);
      if flags[i] {
        assert Marked(flags, i) == Marked(flags, i + 1) + {i};
      } else {
        assert Marked(flags, i) == Marked(flags, i + 1);
      }
    } else {
      assert Marked(flags, i) == {};
    }
  }
}

=== FILE: geometry.dfy ===
/** Distance tests and clamping. The source compares `math.sqrt(dx*dx + dy*dy)`
    with a threshold (app.py:46-49, 156, 178, 183); over the reals that test is
    decided exactly on squares, so no square root appears in the model. */
module Geometry {

  /** The point (dx, dy) is strictly closer to the origin than `t`. Such a point
      lies in the open square of half-side `t` around the origin. */
  function Within(dx: real, dy: real, t: real): (r: bool)
    ensures r ==> 0.0 < t && -t < dx < t && -t < dy < t
  {
    SquareBound(dx, dy, t);
    SquareBound(dy, dx, t);
    0.0 < t && dx * dx + dy * dy < t * t
  }

  /** A coordinate of a point closer than `t` to the origin is itself smaller than `t`. */
  lemma SquareBound(u: real, w: real, t: real)
    ensures 0.0 < t && u * u + w * w < t * t ==> -t < u < t
  {
    if 0.0 < t && t <= u {
      assert t * t <= t * u <= u * u;
    }
    if 0.0 < t && u <= -t {
      assert t * t <= t * -u <= u * u;
    }
  }

  /** `Within` agrees with comparing the Euclidean distance `d` against `t`. */
  lemma WithinMeansCloser(dx: real, dy: real, t: real, d: real)
    requires 0.0 <= d && d * d == dx * dx + dy * dy
    ensures Within(dx, dy, t) <==> d < t
  {
    if 0.0 < t {
      if d < t {
        calc {
          dx * dx + dy * dy;
          == d * d;
          <= d * t;
          < t * t;
        }
      } else {
        calc {
          t * t;
          <= t * d;
          <= d * d;
        }
      }
    }
  }

  /** `max(lo, min(hi, v))`: `v` pulled back into [lo, hi]; `lo` wins when the interval is empty. */
  function Clamp(v: real, lo: real, hi: real): (r: real)
    ensures lo <= r
    ensures lo <= hi ==> r <= hi
    ensures lo <= v <= hi ==> r == v
    ensures v < lo ==> r == lo
    ensures lo <= hi < v ==> r == hi
  {
    var capped := if hi < v then hi else v;
    if capped < lo then lo else capped
  }
}

=== FILE: grazing.dfy ===
/** Stage 2 of the tick, food consumption (app.py:147-158). Players take their
    turns in table order; each one scans the pellets in list order, skipping those
    already eaten this tick, and eats every pellet it overlaps enough. */
module Grazing {
  import opened Config
  import opened Optional
  import opened Entities
  import opened Geometry

  /** The pellet test (app.py:151-156) for `p` as it was when its turn began:
      distance below `size/2 - pellet size/3`. Only a player whose radius exceeds a
      third of the pellet's size reaches it, and then its centre lies within its
      radius of the pellet's centre along each axis. */
  function Reaches(p: Player, f: Food): (r: bool)
    ensures r ==> f.size / FoodOverlap < p.size / 2.0
    ensures r && 0.0 <= f.size ==> -(p.size / 2.0) < p.x - f.x < p.size / 2.0 && -(p.size / 2.0) < p.y - f.y < p.size / 2.0
  {
    Within(p.x - f.x, p.y - f.y, p.size / 2.0 - f.size / FoodOverlap)
  }

  /** The grazing player's running size and the indices eaten so far this tick. */
  datatype Pasture = Pasture(size: real, eaten: set<nat>)

  /** The inner loop (app.py:152-158) from pellet `i` on, for `p` as it was at the
      start of its turn: the radius is computed once, before the loop. It only adds
      to the eaten set, and with pellets of non-negative size it never shrinks the
      player; `GrazeFromClosedForm` says exactly what it adds. */
  function GrazeFrom(p: Player, food: seq<Food>, i: nat, g: Pasture): (r: Pasture)
    ensures g.eaten <= r.eaten
    ensures (forall j :: i <= j < |food| ==> 0.0 <= food[j].size) ==> g.size <= r.size
    decreases |food| - i
  {
    if i >= |food| then g
    else if i in g.eaten then GrazeFrom(p, food, i + 1, g)
    else if Reaches(p, food[i]) then
      GrazeFrom(p, food, i + 1, Pasture(g.size + FoodGrowth * food[i].size, g.eaten + {i}))
    else GrazeFrom(p, food, i + 1, g)
  }

  /** The players after the stage, and `food_eaten_indices`. */
  datatype Feeding = Feeding(ps: map<SessionId, Player>, eaten: set<nat>)

  /** The outer loop (app.py:148-158) from the `k`-th player of `ids` on. */
  function Graze(ids: seq<SessionId>, k: nat, ps: map<SessionId, Player>, food: seq<Food>, eaten: set<nat>): (r: Feeding)
    requires forall s :: s in ids ==> s in ps
    ensures r.ps.Keys == ps.Keys
    decreases |ids| - k
  {
    if k >= |ids| then Feeding(ps, eaten)
    else
      var p := ps[ids[k]];
      var g := GrazeFrom(p, food, 0, Pasture(p.size, eaten));
      Graze(ids, k + 1, ps[ids[k] := p.(size := g.size)], food, g.eaten)
  }

  // ---------------------------------------------------------------------------
  // Closed form: every pellet goes to the first player in table order that
  // reaches it, and a player grows by FoodGrowth times the pellets it won.
  // ---------------------------------------------------------------------------

  predicate Claims(ps: map<SessionId, Player>, s: SessionId, f: Food) {
    s in ps && Reaches(ps[s], f)
  }

  /** The first of ids[..n] that reaches `f`, if any. */
  function FirstClaimant(ids: seq<SessionId>, n: nat, ps: map<SessionId, Player>, f: Food): (r: Option<SessionId>)
    requires n <= |ids|
    ensures r.None? <==> forall k :: 0 <= k < n ==> !Claims(ps, ids[k], f)
    ensures r.Some? ==> exists k :: 0 <= k < n && ids[k] == r.value && Claims(ps, ids[k], f)
                                    && forall k' :: 0 <= k' < k ==> !Claims(ps, ids[k'], f)
  {
    if n == 0 then None
    else match FirstClaimant(ids, n - 1, ps, f)
      case Some(s) => Some(s)
      case None => if Claims(ps, ids[n - 1], f) then Some(ids[n - 1]) else None
  }

  /** What `s` wins from pellets i.. when each pellet goes to its first claimant among ids[..n]. */
  function Harvest(ids: seq<SessionId>, n: nat, ps: map<SessionId, Player>, food: seq<Food>, s: SessionId, i: nat): (r: real)
    requires n <= |ids|
    ensures (forall j :: i <= j < |food| ==> 0.0 <= food[j].size) ==> 0.0 <= r
    decreases |food| - i
  {
    if i >= |food| then 0.0
    else
      (if FirstClaimant(ids, n, ps, food[i]) == Some(s) then FoodGrowth * food[i].size else 0.0)
      + Harvest(ids, n, ps, food, s, i + 1)
  }

  /** What `p` gains from the pellets i.. that it reaches and that are not in `eaten`. */
  function Gain(p: Player, food: seq<Food>, eaten: set<nat>, i: nat): real
    decreases |food| - i
  {
    if i >= |food| then 0.0
    else (if i !in eaten && Reaches(p, food[i]) then FoodGrowth * food[i].size else 0.0) + Gain(p, food, eaten, i + 1)
  }

  lemma {:induction false} GainAgrees(p: Player, food: seq<Food>, e1: set<nat>, e2: set<nat>, i: nat)
    requires forall j: nat :: i <= j ==> (j in e1 <==> j in e2)
    ensures Gain(p, food, e1, i) == Gain(p, food, e2, i)
    decreases |food| - i
  {
    if i < |food| {
      GainAgrees(p, food, e1, e2, i + 1);
    }
  }

  /** The inner loop adds to the size exactly what `Gain` counts, and marks exactly the reached pellets. */
  lemma {:induction false} GrazeFromClosedForm(p: Player, food: seq<Food>, i: nat, g: Pasture)
    ensures GrazeFrom(p, food, i, g).size == g.size + Gain(p, food, g.eaten, i)
    ensures forall j: nat :: j in GrazeFrom(p, food, i, g).eaten <==>
                             j in g.eaten || (i <= j < |food| && Reaches(p, food[j]))
    decreases |food| - i
  {
    if i < |food| {
      if i in g.eaten {
        GrazeFromClosedForm(p, food, i + 1, g);
      } else if Reaches(p, food[i]) {
        var g' := Pasture(g.size + FoodGrowth * food[i].size, g.eaten + {i});
        GrazeFromClosedForm(p, food, i + 1, g');
        GainAgrees(p, food, g'.eaten, g.eaten, i + 1);
      } else {
        GrazeFromClosedForm(p, food, i + 1, g);
      }
    }
  }

  /** Pellets beyond the first n claimants' reach are not won by the n-th player's successors. */
  lemma {:induction false} HarvestOfOthers(ids: seq<SessionId>, n: nat, ps: map<SessionId, Player>, food: seq<Food>, s: SessionId, i: nat)
    requires n < |ids| && s != ids[n]
    ensures Harvest(ids, n + 1, ps, food, s, i) == Harvest(ids, n, ps, food, s, i)
    decreases |food| - i
  {
    if i < |food| {
      HarvestOfOthers(ids, n, ps, food, s, i + 1);
    }
  }

  /** Before its turn a player has won nothing. */
  lemma {:induction false} HarvestBeforeTurn(ids: seq<SessionId>, n: nat, ps: map<SessionId, Player>, food: seq<Food>, i: nat)
    requires NoDuplicates(ids) && n < |ids|
    ensures Harvest(ids, n, ps, food, ids[n], i) == 0.0
    decreases |food| - i
  {
    if i < |food| {
      var c := FirstClaimant(ids, n, ps, food[i]);
      assert c != Some(ids[n]) by {
        if c.Some? {
          var k :| 0 <= k < n && ids[k] == c.value;
          assert ids[k] != ids[n];
        }
      }
      HarvestBeforeTurn(ids, n, ps, food, i + 1);
    }
  }

  /** During its turn the n-th player gains exactly the pellets it wins as first claimant. */
  lemma {:induction false} GainIsHarvest(ids: seq<SessionId>, n: nat, ps: map<SessionId, Player>, food: seq<Food>, eaten: set<nat>, i: nat)
    requires NoDuplicates(ids) && n < |ids| && ids[n] in ps
    requires forall j: nat :: j < |food| ==> (j in eaten <==> FirstClaimant(ids, n, ps, food[j]).Some?)
    ensures Gain(ps[ids[n]], food, eaten, i) == Harvest(ids, n + 1, ps, food, ids[n], i)
    decreases |food| - i
  {
    if i < |food| {
      var c := FirstClaimant(ids, n, ps, food[i]);
      assert c != Some(ids[n]) by {
        if c.Some? {
          var k :| 0 <= k < n && ids[k] == c.value;
          assert ids[k] != ids[n];
        }
      }
      GainIsHarvest(ids, n, ps, food, eaten, i + 1);
    }
  }

  /** The state after the first k turns, described by the closed form. */
  ghost predicate AfterTurns(ids: seq<SessionId>, k: nat, ps0: map<SessionId, Player>, food: seq<Food>, f: Feeding)
    requires k <= |ids|
  {
    && f.ps.Keys == ps0.Keys
    && (forall s :: s in ps0 ==> f.ps[s] == ps0[s].(size := ps0[s].size + Harvest(ids, k, ps0, food, s, 0)))
    && (forall j: nat :: j in f.eaten <==> j < |food| && FirstClaimant(ids, k, ps0, food[j]).Some?)
  }

  /** The turn of the k-th player (app.py:149-158) extends the closed form from the
      first k players to the first k + 1. */
  lemma TurnKeepsAfterTurns(ids: seq<SessionId>, k: nat, ps0: map<SessionId, Player>, food: seq<Food>, f: Feeding)
    requires NoDuplicates(ids) && (forall s :: s in ids ==> s in ps0) && k < |ids|
    requires AfterTurns(ids, k, ps0, food, f)
    ensures var p := f.ps[ids[k]];
      var g := GrazeFrom(p, food, 0, Pasture(p.size, f.eaten));
      AfterTurns(ids, k + 1, ps0, food, Feeding(f.ps[ids[k] := p.(size := g.size)], g.eaten))
  {
    var sid := ids[k];
    HarvestBeforeTurn(ids, k, ps0, food, 0);
    var p := f.ps[sid];
    assert p == ps0[sid];
    var g := GrazeFrom(p, food, 0, Pasture(p.size, f.eaten));
    GrazeFromClosedForm(p, food, 0, Pasture(p.size, f.eaten));
    GainIsHarvest(ids, k, ps0, food, f.eaten, 0);
    var f' := Feeding(f.ps[sid := p.(size := g.size)], g.eaten);
    forall s | s in ps0
      ensures f'.ps[s] == ps0[s].(size := ps0[s].size + Harvest(ids, k + 1, ps0, food, s, 0))
    {
      if s != sid {
        HarvestOfOthers(ids, k, ps0, food, s, 0);
      }
    }
    forall j: nat
      ensures j in f'.eaten <==> j < |food| && FirstClaimant(ids, k + 1, ps0, food[j]).Some?
    {
    }
  }

  /** The outer loop keeps the closed form, one turn at a time. */
  lemma {:induction false} GrazeInvariant(ids: seq<SessionId>, k: nat, ps0: map<SessionId, Player>, food: seq<Food>, f: Feeding)
    requires NoDuplicates(ids) && (forall s :: s in ids ==> s in ps0) && k <= |ids|
    requires AfterTurns(ids, k, ps0, food, f)
    ensures AfterTurns(ids, |ids|, ps0, food, Graze(ids, k, f.ps, food, f.eaten))
    decreases |ids| - k
  {
    if k < |ids| {
      var p := f.ps[ids[k]];
      var g := GrazeFrom(p, food, 0, Pasture(p.size, f.eaten));
      var f' := Feeding(f.ps[ids[k] := p.(size := g.size)], g.eaten);
      TurnKeepsAfterTurns(ids, k, ps0, food, f);
      assert Graze(ids, k, f.ps, food, f.eaten) == Graze(ids, k + 1, f'.ps, food, f'.eaten);
      GrazeInvariant(ids, k + 1, ps0, food, f');
    }
  }

  /** Stage 2 as a whole: pellet j is eaten exactly when some player reaches it, it
      goes to the first such player in table order, and every player's size rises by
      exactly FoodGrowth times the sizes of the pellets it won; nothing else changes. */
  lemma GrazeClosedForm(ids: seq<SessionId>, ps: map<SessionId, Player>, food: seq<Food>)
    requires NoDuplicates(ids) && forall s :: s in ids ==> s in ps
    ensures var r := Graze(ids, 0, ps, food, {});
      && r.ps.Keys == ps.Keys
      && (forall s :: s in ps ==> r.ps[s] == ps[s].(size := ps[s].size + Harvest(ids, |ids|, ps, food, s, 0)))
      && (forall j: nat :: j in r.eaten <==> j < |food| && FirstClaimant(ids, |ids|, ps, food[j]).Some?)
  {
    forall s | s in ps ensures Harvest(ids, 0, ps, food, s, 0) == 0.0 {
      HarvestUnclaimed(ids, ps, food, s, 0);
    }
    assert AfterTurns(ids, 0, ps, food, Feeding(ps, {}));
    GrazeInvariant(ids, 0, ps, food, Feeding(ps, {}));
  }

  lemma {:induction false} HarvestUnclaimed(ids: seq<SessionId>, ps: map<SessionId, Player>, food: seq<Food>, s: SessionId, i: nat)
    ensures Harvest(ids, 0, ps, food, s, i) == 0.0
    decreases |food| - i
  {
    if i < |food| {
      HarvestUnclaimed(ids, ps, food, s, i + 1);
    }
  }

  // ---------------------------------------------------------------------------
  // Accounting: each eaten pellet is credited to exactly one player.
  // ---------------------------------------------------------------------------

  /** Number of pellets from i on that `s` wins. */
  function Tally(ids: seq<SessionId>, n: nat, ps: map<SessionId, Player>, food: seq<Food>, s: SessionId, i: nat): nat
    requires n <= |ids|
    decreases |food| - i
  {
    if i >= |food| then 0
    else (if FirstClaimant(ids, n, ps, food[i]) == Some(s) then 1 else 0) + Tally(ids, n, ps, food, s, i + 1)
  }

  /** With pellets of the standard size, a player grows by 0.2 * FOOD_SIZE per pellet it won. */
  lemma {:induction false} HarvestCountsPellets(ids: seq<SessionId>, n: nat, ps: map<SessionId, Player>, food: seq<Food>, s: SessionId, i: nat)
    requires n <= |ids|
    requires forall j :: i <= j < |food| ==> food[j].size == FoodSize
    ensures Harvest(ids, n, ps, food, s, i) == FoodGrowth * FoodSize * Tally(ids, n, ps, food, s, i) as real
    decreases |food| - i
  {
    if i < |food| {
      HarvestCountsPellets(ids, n, ps, food, s, i + 1);
    }
  }

  /** Growth handed out for pellets i.. : each pellet that somebody reaches, once. */
  function Handout(ids: seq<SessionId>, ps: map<SessionId, Player>, food: seq<Food>, i: nat): real
    decreases |food| - i
  {
    if i >= |food| then 0.0
    else (if FirstClaimant(ids, |ids|, ps, food[i]).Some? then FoodGrowth * food[i].size else 0.0)
         + Handout(ids, ps, food, i + 1)
  }

  /** Number of pellets from i on that somebody reaches. */
  function Won(ids: seq<SessionId>, ps: map<SessionId, Player>, food: seq<Food>, i: nat): nat
    decreases |food| - i
  {
    if i >= |food| then 0
    else (if FirstClaimant(ids, |ids|, ps, food[i]).Some? then 1 else 0) + Won(ids, ps, food, i + 1)
  }

  /** What the players listed in `ks` win together from pellets i.. . */
  function HarvestTotal(ks: seq<SessionId>, ids: seq<SessionId>, ps: map<SessionId, Player>, food: seq<Food>, i: nat): real
  {
    if ks == [] then 0.0
    else Harvest(ids, |ids|, ps, food, ks[0], i) + HarvestTotal(ks[1..], ids, ps, food, i)
  }

  /** The share of one pellet of growth `g`, won by `c`, that goes to the players in `ks`. */
  function Share(ks: seq<SessionId>, c: Option<SessionId>, g: real): real
  {
    if ks == [] then 0.0 else (if c == Some(ks[0]) then g else 0.0) + Share(ks[1..], c, g)
  }

  lemma {:induction false} ShareOnce(ks: seq<SessionId>, c: Option<SessionId>, g: real)
    requires NoDuplicates(ks)
    ensures Share(ks, c, g) == if c.Some? && c.value in ks then g else 0.0
  {
    if ks != [] {
      NoDuplicatesTail(ks);
      ShareOnce(ks[1..], c, g);
      if c == Some(ks[0]) {
        assert ks[0] !in ks[1..] by {
          forall k | 0 <= k < |ks[1..]| ensures ks[1..][k] != ks[0] {
            assert ks[1..][k] == ks[k + 1];
          }
        }
      } else {
        assert c.Some? && c.value in ks ==> c.value in ks[1..] by {
          assert ks == [ks[0]] + ks[1..];
        }
      }
    }
  }

  lemma {:induction false} HarvestTotalStep(ks: seq<SessionId>, ids: seq<SessionId>, ps: map<SessionId, Player>, food: seq<Food>, i: nat)
    requires i < |food|
    ensures HarvestTotal(ks, ids, ps, food, i)
            == Share(ks, FirstClaimant(ids, |ids|, ps, food[i]), FoodGrowth * food[i].size)
               + HarvestTotal(ks, ids, ps, food, i + 1)
  {
    if ks != [] {
      HarvestTotalStep(ks[1..], ids, ps, food, i);
    }
  }

  lemma {:induction false} HarvestTotalEnd(ks: seq<SessionId>, ids: seq<SessionId>, ps: map<SessionId, Player>, food: seq<Food>, i: nat)
    requires |food| <= i
    ensures HarvestTotal(ks, ids, ps, food, i) == 0.0
  {
    if ks != [] {
      HarvestTotalEnd(ks[1..], ids, ps, food, i);
    }
  }

  /** Summed over all players, the growth is exactly one share per pellet reached:
      no pellet is credited twice and none is lost. */
  lemma {:induction false} CreditedOnce(ids: seq<SessionId>, ps: map<SessionId, Player>, food: seq<Food>, i: nat)
    requires NoDuplicates(ids)
    ensures HarvestTotal(ids, ids, ps, food, i) == Handout(ids, ps, food, i)
    decreases |food| - i
  {
    if i < |food| {
      var c := FirstClaimant(ids, |ids|, ps, food[i]);
      HarvestTotalStep(ids, ids, ps, food, i);
      ShareOnce(ids, c, FoodGrowth * food[i].size);
      if c.Some? {
        var k :| 0 <= k < |ids| && ids[k] == c.value;
      }
      CreditedOnce(ids, ps, food, i + 1);
    } else {
      HarvestTotalEnd(ids, ids, ps, food, i);
    }
  }

  lemma {:induction false} MassPlusHarvest(ks: seq<SessionId>, ids: seq<SessionId>, ps: map<SessionId, Player>, ps': map<SessionId, Player>, food: seq<Food>)
    requires forall s :: s in ks ==> s in ps && s in ps' && ps'[s].size == ps[s].size + Harvest(ids, |ids|, ps, food, s, 0)
    ensures Mass(ks, ps', {}) == Mass(ks, ps, {}) + HarvestTotal(ks, ids, ps, food, 0)
  {
    if ks != [] {
      assert ks[0] in ks;
      MassPlusHarvest(ks[1..], ids, ps, ps', food);
    }
  }

  /** Stage 2 adds to the players' total size exactly FoodGrowth times the sizes of the
      pellets that were reached. */
  lemma GrazeMass(ids: seq<SessionId>, ps: map<SessionId, Player>, food: seq<Food>)
    requires NoDuplicates(ids) && forall s :: s in ids ==> s in ps
    ensures Mass(ids, Graze(ids, 0, ps, food, {}).ps, {}) == Mass(ids, ps, {}) + Handout(ids, ps, food, 0)
  {
    GrazeClosedForm(ids, ps, food);
    MassPlusHarvest(ids, ids, ps, Graze(ids, 0, ps, food, {}).ps, food);
    CreditedOnce(ids, ps, food, 0);
  }

  /** With pellets of the standard size, the handout is 0.2 * FOOD_SIZE per pellet reached. */
  lemma {:induction false} HandoutCountsPellets(ids: seq<SessionId>, ps: map<SessionId, Player>, food: seq<Food>, i: nat)
    requires forall j :: i <= j < |food| ==> food[j].size == FoodSize
    ensures Handout(ids, ps, food, i) == FoodGrowth * FoodSize * Won(ids, ps, food, i) as real
    decreases |food| - i
  {
    if i < |food| {
      HandoutCountsPellets(ids, ps, food, i + 1);
    }
  }

  /** `Won` counts the indices of the pellets that somebody reaches. */
  lemma {:induction false} WonCountsIndices(ids: seq<SessionId>, ps: map<SessionId, Player>, food: seq<Food>, i: nat)
    ensures |set j: nat | i <= j < |food| && FirstClaimant(ids, |ids|, ps, food[j]).Some?| == Won(ids, ps, food, i)
    decreases |food| - i
  {
    var flags := seq(|food|, j requires 0 <= j < |food| => FirstClaimant(ids, |ids|, ps, food[j]).Some?);
    WonIsCount(ids, ps, food, flags, i);
    CountMarked(flags, i);
    assert (set j: nat | i <= j < |food| && FirstClaimant(ids, |ids|, ps, food[j]).Some?) == Marked(flags, i);
  }

  lemma {:induction false} WonIsCount(ids: seq<SessionId>, ps: map<SessionId, Player>, food: seq<Food>, flags: seq<bool>, i: nat)
    requires |flags| == |food|
    requires forall j :: 0 <= j < |food| ==> flags[j] == FirstClaimant(ids, |ids|, ps, food[j]).Some?
    ensures Won(ids, ps, food, i) == Count(flags, i)
    decreases |food| - i
  {
    if i < |food| {
      WonIsCount(ids, ps, food, flags, i + 1);
    }
  }

  /** Stage 2 with pellets of FOOD_SIZE: the total size grows by 0.2 * FOOD_SIZE for
      every eaten pellet. */
  lemma GrazeMassCounted(ids: seq<SessionId>, ps: map<SessionId, Player>, food: seq<Food>)
    requires NoDuplicates(ids) && forall s :: s in ids ==> s in ps
    requires forall j :: 0 <= j < |food| ==> food[j].size == FoodSize
    ensures var r := Graze(ids, 0, ps, food, {});
      Mass(ids, r.ps, {}) == Mass(ids, ps, {}) + FoodGrowth * FoodSize * |r.eaten| as real
  {
    var r := Graze(ids, 0, ps, food, {});
    GrazeMass(ids, ps, food);
    HandoutCountsPellets(ids, ps, food, 0);
    WonCountsIndices(ids, ps, food, 0);
    GrazeClosedForm(ids, ps, food);
    assert (set j: nat | 0 <= j < |food| && FirstClaimant(ids, |ids|, ps, food[j]).Some?) == r.eaten;
  }

  /** Stage 2 never shrinks anybody, and changes nothing but sizes, so positive
      sizes stay positive; it marks only indices of the pellet list. */
  lemma GrazeNeverShrinks(ids: seq<SessionId>, ps: map<SessionId, Player>, food: seq<Food>)
    requires NoDuplicates(ids) && forall s :: s in ids ==> s in ps
    requires forall j :: 0 <= j < |food| ==> 0.0 <= food[j].size
    ensures var r := Graze(ids, 0, ps, food, {});
      && r.ps.Keys == ps.Keys
      && (forall s :: s in ps ==> r.ps[s] == ps[s].(size := r.ps[s].size) && ps[s].size <= r.ps[s].size)
      && (PositiveSizes(ps) ==> PositiveSizes(r.ps))
      && (forall j :: j in r.eaten ==> j < |food|)
  {
    GrazeClosedForm(ids, ps, food);
    var r := Graze(ids, 0, ps, food, {});
    forall s | s in ps ensures ps[s].size <= r.ps[s].size {
      assert 0.0 <= Harvest(ids, |ids|, ps, food, s, 0);
    }
  }
}

=== FILE: intake.dfy ===
/** The three inbound commands, each applied atomically to the player table:
    `join` (app.py:76-94), `player_move` (app.py:106-113) and `disconnect`
    (app.py:67-74). Values the source draws at random are parameters. */
module Intake {
  import opened Config
  import opened Optional
  import opened Entities
  import opened Rosters

  /** Python's `s[:n]`. */
  function Truncate(s: string, n: nat): (r: string)
    ensures |r| <= n && r <= s
    ensures |s| <= n ==> r == s
    ensures n <= |s| ==> |r| == n
  {
    if |s| <= n then s else s[..n]
  }

  /** A player joins. `name` is the payload's `name` field (`None` when the key is
      absent); `x`, `y` and `color` stand for the values of `random.uniform` and
      `get_random_color`. An existing entry for the session is replaced in place. */
  function Join(r: Roster, sid: SessionId, name: Option<string>, x: real, y: real, color: string): (r': Roster)
    ensures sid in r'.entries
    ensures var p := r'.entries[sid];
      && p.id == sid && p.x == x && p.y == y && p.color == color
      && p.size == InitialPlayerSize && p.targetX == 0.0 && p.targetY == 0.0
      && |p.name| <= MaxNameLength
      && (name.None? ==> p.name == DefaultName)
      && (name.Some? ==> p.name <= name.value && (|name.value| <= MaxNameLength ==> p.name == name.value))
      && (name.Some? && MaxNameLength <= |name.value| ==> |p.name| == MaxNameLength)
    ensures forall s :: s != sid ==> (s in r'.entries <==> s in r.entries)
    ensures forall s :: s != sid && s in r.entries ==> r'.entries[s] == r.entries[s]
    ensures sid in r.entries ==> r'.order == r.order
    ensures sid !in r.entries ==> r'.order == r.order + [sid]
    ensures Valid(r) ==> Valid(r')
    ensures InitialPlayerSize <= x <= MapWidth - InitialPlayerSize
         && InitialPlayerSize <= y <= MapHeight - InitialPlayerSize
         ==> InBounds(r'.entries[sid])
  {
    var shown := Truncate(name.Or(DefaultName), MaxNameLength);
    Put(r, Player(sid, shown, x, y, InitialPlayerSize, color, 0.0, 0.0))
  }

  /** A movement intent arrives. `x` and `y` are the payload's fields (`None` when
      absent, read as 0). An unknown session changes nothing; otherwise only the
      player's target changes. */
  function Steer(r: Roster, sid: SessionId, x: Option<real>, y: Option<real>): (r': Roster)
    ensures sid !in r.entries ==> r' == r
    ensures r'.order == r.order && r'.entries.Keys == r.entries.Keys
    ensures forall s :: s in r.entries && s != sid ==> r'.entries[s] == r.entries[s]
    ensures sid in r.entries ==> r'.entries[sid] == r.entries[sid].(targetX := x.Or(0.0), targetY := y.Or(0.0))
    ensures Valid(r) ==> Valid(r')
  {
    if sid in r.entries then
      var p := r.entries[sid];
      Roster(r.entries[sid := p.(targetX := x.Or(0.0), targetY := y.Or(0.0))], r.order)
    else r
  }

  /** A session disconnects: its player, if any, is removed. Removing an absent
      session changes nothing, so a second disconnect has no further effect. */
  function Disconnect(r: Roster, sid: SessionId): (r': Roster)
    ensures sid !in r'.entries
    ensures forall s :: s != sid ==> (s in r'.entries <==> s in r.entries)
    ensures forall s :: s != sid && s in r.entries ==> r'.entries[s] == r.entries[s]
    ensures sid !in r.entries ==> r' == r
    ensures Valid(r) ==> Valid(r') && r'.order == Without(r.order, {sid})
  {
    Pop(r, sid)
  }
}

=== FILE: movement.dfy ===
/** Stage 1 of the tick, movement (app.py:123-145). `math.sqrt` of the target
    vector is the parameter `norm`, and `math.log1p` is the parameter `log1p`,
    of which only positivity on positive arguments is used. */
module Movement {
  import opened Config
  import opened Entities
  import opened Geometry
  import opened Rosters

  /** What the speed formula relies on about `math.log1p`. */
  ghost predicate PositiveOnPositives(log1p: real -> real) {
    forall v :: 0.0 < v ==> 0.0 < log1p(v)
  }

  /** `PLAYER_SPEED_FACTOR / (1 + log1p(size / INITIAL_PLAYER_SIZE))` (app.py:138). */
  function Speed(log1p: real -> real, size: real): (r: real)
    requires 0.0 < size && PositiveOnPositives(log1p)
    ensures 0.0 < r < PlayerSpeedFactor
  {
    var damping := 1.0 + log1p(size / InitialPlayerSize);
    assert 1.0 < damping;
    var r := PlayerSpeedFactor / damping;
    assert r * damping == PlayerSpeedFactor;
    r
  }

  /** Larger players are never faster, for any non-decreasing `log1p`. */
  lemma SpeedFallsWithSize(log1p: real -> real, small: real, large: real)
    requires PositiveOnPositives(log1p)
    requires forall u, v :: 0.0 < u <= v ==> log1p(u) <= log1p(v)
    requires 0.0 < small <= large
    ensures Speed(log1p, large) <= Speed(log1p, small)
  {
    var ds := 1.0 + log1p(small / InitialPlayerSize);
    var dl := 1.0 + log1p(large / InitialPlayerSize);
    assert small / InitialPlayerSize <= large / InitialPlayerSize;
    assert ds <= dl;
    var vs := Speed(log1p, small);
    var vl := Speed(log1p, large);
    assert vs * ds == PlayerSpeedFactor && vl * dl == PlayerSpeedFactor;
    if vs < vl {
      calc {
        PlayerSpeedFactor;
        == vs * ds;
        < vl * ds;
        <= vl * dl;
      }
    }
  }

  /** Direction of travel (app.py:127-135): the target vector scaled to unit length,
      or no movement when its magnitude is at most 1 (the dead zone). */
  function Heading(norm: (real, real) -> real, tx: real, ty: real): (h: (real, real))
    ensures norm(tx, ty) <= 1.0 ==> h == (0.0, 0.0)
    ensures 1.0 < norm(tx, ty) ==> h.0 * norm(tx, ty) == tx && h.1 * norm(tx, ty) == ty
    ensures 1.0 < norm(tx, ty) && norm(tx, ty) * norm(tx, ty) == tx * tx + ty * ty
            ==> h.0 * h.0 + h.1 * h.1 == 1.0
  {
    var m := norm(tx, ty);
    if 1.0 < m then
      var h := (tx / m, ty / m);
      assert h.0 * m == tx && h.1 * m == ty;
      assert m * m == tx * tx + ty * ty ==> h.0 * h.0 + h.1 * h.1 == 1.0 by {
        if m * m == tx * tx + ty * ty {
          calc {
            (h.0 * h.0 + h.1 * h.1) * (m * m);
            == (h.0 * m) * (h.0 * m) + (h.1 * m) * (h.1 * m);
            == tx * tx + ty * ty;
            == m * m;
          }
        }
      }
      h
    else (0.0, 0.0)
  }

  /** One player's movement: a step along its heading, then each coordinate clamped
      to [size/2, extent - size/2] (app.py:144-145). In the dead zone the step is
      zero, so the clamp alone acts: it pulls back a player that growth pushed past
      an edge, and leaves a player in bounds where it is. */
  function Step(p: Player, norm: (real, real) -> real, log1p: real -> real): (q: Player)
    requires 0.0 < p.size && PositiveOnPositives(log1p)
    ensures q == p.(x := q.x, y := q.y)
    ensures p.size / 2.0 <= q.x && p.size / 2.0 <= q.y
    ensures p.size <= MapWidth ==> q.x <= MapWidth - p.size / 2.0
    ensures p.size <= MapHeight ==> q.y <= MapHeight - p.size / 2.0
    ensures norm(p.targetX, p.targetY) <= 1.0 ==>
              && q.x == Clamp(p.x, p.size / 2.0, MapWidth - p.size / 2.0)
              && q.y == Clamp(p.y, p.size / 2.0, MapHeight - p.size / 2.0)
    ensures norm(p.targetX, p.targetY) <= 1.0 && InBounds(p) ==> q == p
  {
    var h := Heading(norm, p.targetX, p.targetY);
    var speed := Speed(log1p, p.size);
    var half := p.size / 2.0;
    p.(x := Clamp(p.x + h.0 * speed, half, MapWidth - half),
       y := Clamp(p.y + h.1 * speed, half, MapHeight - half))
  }

  /** Stage 1 over the whole table: every player moves, nothing else changes. */
  function Advance(r: Roster, norm: (real, real) -> real, log1p: real -> real): (r': Roster)
    requires PositiveSizes(r.entries) && PositiveOnPositives(log1p)
    ensures r'.order == r.order && r'.entries.Keys == r.entries.Keys
    ensures forall s :: s in r.entries ==> r'.entries[s] == r.entries[s].(x := r'.entries[s].x, y := r'.entries[s].y)
    ensures Valid(r) ==> Valid(r')
  {
    Roster(map s | s in r.entries :: Step(r.entries[s], norm, log1p), r.order)
  }

  /** Right after Stage 1 every player lies within the map bounds whenever it fits
      on the map, and never beyond the lower edges in any case; a player in the
      dead zone was only clamped, so one that was already in bounds has not moved. */
  lemma AdvanceBounds(r: Roster, norm: (real, real) -> real, log1p: real -> real)
    requires PositiveSizes(r.entries) && PositiveOnPositives(log1p)
    ensures var r' := Advance(r, norm, log1p);
      forall s :: s in r'.entries ==>
        && (r'.entries[s].size <= MapWidth && r'.entries[s].size <= MapHeight ==> InBounds(r'.entries[s]))
        && r'.entries[s].size / 2.0 <= r'.entries[s].x && r'.entries[s].size / 2.0 <= r'.entries[s].y
        && (norm(r.entries[s].targetX, r.entries[s].targetY) <= 1.0 ==>
              && r'.entries[s].x == Clamp(r.entries[s].x, r.entries[s].size / 2.0, MapWidth - r.entries[s].size / 2.0)
              && r'.entries[s].y == Clamp(r.entries[s].y, r.entries[s].size / 2.0, MapHeight - r.entries[s].size / 2.0))
        && (norm(r.entries[s].targetX, r.entries[s].targetY) <= 1.0 && InBounds(r.entries[s]) ==> r'.entries[s] == r.entries[s])
  {
  }
}

=== FILE: optional.dfy ===
/** A payload field or a search result that may be absent. */
module Optional {

  datatype Option<T> = None | Some(value: T) {

    /** The value, or `fallback` when absent: `data.get(key, fallback)` in the source. */
    function Or(fallback: T): T {
      if Some? then value else fallback
    }
  }
}

=== FILE: pantry.dfy ===
/** The food list: new pellets (app.py:31-41, 52) and Stage 5 of the tick, which drops
    the eaten pellets and tops the list back up (app.py:200-203). */
module Pantry {
  import opened Config
  import opened Entities

  /** The random values behind one new pellet: its id, position and colour. */
  datatype Draw = Draw(id: int, x: real, y: real, color: string)

  /** `d` lies in the ranges app.py:36-38 draw from: `randint(10000, 99999)` and
      `uniform(FOOD_SIZE, extent - FOOD_SIZE)`, both ends included. */
  predicate Fair(d: Draw) {
    && 10000 <= d.id <= 99999
    && FoodSize <= d.x <= MapWidth - FoodSize
    && FoodSize <= d.y <= MapHeight - FoodSize
  }

  /** The pellet lies on the map at least its own size away from every edge. */
  predicate OnMap(f: Food) {
    && f.size <= f.x <= MapWidth - f.size
    && f.size <= f.y <= MapHeight - f.size
  }

  /** The food list is full of FOOD_SIZE pellets on the map. */
  predicate Stocked(food: seq<Food>) {
    |food| == FoodCount && forall k :: 0 <= k < |food| ==> food[k].size == FoodSize && OnMap(food[k])
  }

  /** The pellet built from one draw (app.py:35-41). */
  function Spawn(d: Draw): (f: Food)
    ensures f.size == FoodSize
    ensures Fair(d) ==> OnMap(f) && 10000 <= f.id <= 99999
  {
    Food(d.id, d.x, d.y, FoodSize, d.color)
  }

  /** `generate_food` (app.py:31-41): append FOOD_COUNT - len(food) pellets, the k-th
      new one built from `draw(k)`; a list already full is left alone. */
  function GenerateFood(food: seq<Food>, draw: nat -> Draw): (r: seq<Food>)
    ensures |food| <= |r| && r[..|food|] == food
    ensures FoodCount <= |food| ==> r == food
    ensures |food| <= FoodCount ==> |r| == FoodCount
    ensures forall k :: |food| <= k < |r| ==> r[k] == Spawn(draw(k - |food|))
  {
    var needed := FoodCount - |food|;
    if needed <= 0 then food
    else food + seq(needed, k requires 0 <= k < needed => Spawn(draw(k)))
  }

  /** The food list after start-up (app.py:52): FOOD_COUNT pellets of size FOOD_SIZE,
      all on the map when the draws are fair. */
  function InitialFood(draw: nat -> Draw): (r: seq<Food>)
    ensures |r| == FoodCount
    ensures forall k :: 0 <= k < |r| ==> r[k].size == FoodSize
    ensures (forall k: nat :: Fair(draw(k))) ==> Stocked(r)
  {
    GenerateFood([], draw)
  }

  /** The pellets from index i on whose index is not in `eaten`, in list order: the
      comprehension of app.py:202. */
  function Keep(food: seq<Food>, eaten: set<nat>, i: nat): (r: seq<Food>)
    ensures i <= |food| ==> |r| <= |food| - i
    decreases |food| - i
  {
    if i >= |food| then []
    else (if i in eaten then [] else [food[i]]) + Keep(food, eaten, i + 1)
  }

  /** The indices from i up to n that are not in `eaten`, in increasing order. */
  function Kept(n: nat, eaten: set<nat>, i: nat): (r: seq<nat>)
    ensures forall k :: 0 <= k < |r| ==> i <= r[k] < n
    ensures forall k, l :: 0 <= k < l < |r| ==> r[k] < r[l]
    ensures forall j :: j in r <==> i <= j < n && j !in eaten
    decreases n - i
  {
    if i >= n then []
    else
      var rest := Kept(n, eaten, i + 1);
      if i in eaten then rest
      else
        assert forall k :: 1 <= k < |[i] + rest| ==> ([i] + rest)[k] == rest[k - 1];
        [i] + rest
  }

  /** The kept pellets are exactly the pellets at the kept indices, in the same order. */
  lemma {:induction false} KeepIsKept(food: seq<Food>, eaten: set<nat>, i: nat)
    ensures var ks := Kept(|food|, eaten, i);
      |Keep(food, eaten, i)| == |ks| && forall k :: 0 <= k < |ks| ==> Keep(food, eaten, i)[k] == food[ks[k]]
    decreases |food| - i
  {
    if i < |food| {
      KeepIsKept(food, eaten, i + 1);
      var rest := Keep(food, eaten, i + 1);
      var ks := Kept(|food|, eaten, i + 1);
      if i !in eaten {
        assert Keep(food, eaten, i) == [food[i]] + rest;
        assert Kept(|food|, eaten, i) == [i] + ks;
        forall k | 1 <= k < |ks| + 1
          ensures Keep(food, eaten, i)[k] == food[Kept(|food|, eaten, i)[k]]
        {
          assert Keep(food, eaten, i)[k] == rest[k - 1];
          assert Kept(|food|, eaten, i)[k] == ks[k - 1];
        }
      } else {
        assert Keep(food, eaten, i) == rest;
        assert Kept(|food|, eaten, i) == ks;
      }
    }
  }

  /** The eaten indices from i on. */
  function EatenFrom(eaten: set<nat>, i: nat): set<nat> {
    set j | j in eaten && i <= j
  }

  /** Every index not eaten survives, so when all eaten indices are valid the list
      shrinks by exactly the number of eaten pellets. */
  lemma {:induction false} KeptCount(n: nat, eaten: set<nat>, i: nat)
    requires i <= n && forall j :: j in eaten ==> j < n
    ensures |Kept(n, eaten, i)| == n - i - |EatenFrom(eaten, i)|
    decreases n - i
  {
    if i < n {
      KeptCount(n, eaten, i + 1);
      if i in eaten {
        assert EatenFrom(eaten, i) == EatenFrom(eaten, i + 1) + {i};
      } else {
        assert EatenFrom(eaten, i) == EatenFrom(eaten, i + 1);
      }
    } else {
      assert EatenFrom(eaten, i) == {};
    }
  }

  /** Stage 5 (app.py:200-203): when some pellet was eaten, drop the eaten ones and
      refill; otherwise the list is untouched. */
  function Restock(food: seq<Food>, eaten: set<nat>, draw: nat -> Draw): (r: seq<Food>)
    ensures eaten == {} ==> r == food
    ensures |food| <= FoodCount && eaten != {} ==> |r| == FoodCount
  {
    if eaten == {} then food else GenerateFood(Keep(food, eaten, 0), draw)
  }

  /** What Stage 5 leaves: the surviving pellets in their old order, then fresh draws;
      with a full list and valid eaten indices the list is full again. */
  lemma RestockLaws(food: seq<Food>, eaten: set<nat>, draw: nat -> Draw)
    requires eaten != {}
    requires forall j :: j in eaten ==> j < |food|
    ensures var r := Restock(food, eaten, draw);
      var ks := Kept(|food|, eaten, 0);
      && |ks| == |food| - |eaten|
      && |ks| <= |r|
      && (forall k :: 0 <= k < |ks| ==> r[k] == food[ks[k]])
      && (forall k :: |ks| <= k < |r| ==> r[k] == Spawn(draw(k - |ks|)))
      && (|food| <= FoodCount ==> |r| == FoodCount)
  {
    var kept := Keep(food, eaten, 0);
    assert Restock(food, eaten, draw) == GenerateFood(kept, draw);
    KeepIsKept(food, eaten, 0);
    KeptCount(|food|, eaten, 0);
    assert EatenFrom(eaten, 0) == eaten;
  }

  /** A full list of FOOD_SIZE pellets on the map is full again after Stage 5, every
      pellet still of FOOD_SIZE and on the map, provided the draws are fair. */
  lemma RestockKeepsStocked(food: seq<Food>, eaten: set<nat>, draw: nat -> Draw)
    requires Stocked(food)
    requires forall j :: j in eaten ==> j < |food|
    requires forall k: nat :: Fair(draw(k))
    ensures Stocked(Restock(food, eaten, draw))
  {
    if eaten != {} {
      var r := Restock(food, eaten, draw);
      RestockLaws(food, eaten, draw);
      var ks := Kept(|food|, eaten, 0);
      forall k | 0 <= k < |r| ensures r[k].size == FoodSize && OnMap(r[k]) {
        if k < |ks| {
          assert r[k] == food[ks[k]];
        } else {
          assert r[k] == Spawn(draw(k - |ks|));
        }
      }
    }
  }
}

=== FILE: predation.dfy ===
/** Stage 3 of the tick, player consumption (app.py:161-188). Pairs (i, j) with
    i < j are visited in table order; a player already marked removed is skipped
    as A and as B, growth is visible to later pairs at once, and when A is eaten
    its inner loop stops. */
module Predation {
  import opened Config
  import opened Entities
  import opened Geometry

  /** `a` can eat `b` (app.py:178, mirrored at 183): distance below
      `a.size/2 - 0.8 * b.size/2`, and `a` more than EAT_RATIO times larger. The
      eater is always strictly the larger, so of two players at most one can eat
      the other, and nobody can eat a copy of itself. */
  function Devours(a: Player, b: Player): (r: bool)
    ensures r ==> b.size < a.size
  {
    && Within(a.x - b.x, a.y - b.y, a.size / 2.0 - b.size / 2.0 * RadiusMargin)
    && a.size > b.size * EatRatio
  }

  /** One consumption, with both sizes as they were just before it. */
  datatype Eat = Eat(eater: SessionId, victim: SessionId, eaterSize: real, victimSize: real)

  /** The players, `players_to_remove`, and the eats in the order they happened. */
  datatype Melee = Melee(ps: map<SessionId, Player>, removed: set<SessionId>, eats: seq<Eat>)

  predicate Listed(ids: seq<SessionId>, ps: map<SessionId, Player>) {
    forall s :: s in ids ==> s in ps
  }

  /** One of `a` and `b` can eat the other: the pair passes the test of app.py:178
      or of app.py:183. */
  predicate Clash(ps: map<SessionId, Player>, a: SessionId, b: SessionId) {
    a in ps && b in ps && (Devours(ps[a], ps[b]) || Devours(ps[b], ps[a]))
  }

  /** `eater` eats `victim` (app.py:180-181, 185-186): the victim's whole size moves
      to the eater, the victim is marked removed, the eat is logged last, and no
      other player changes. */
  function Feast(m: Melee, eater: SessionId, victim: SessionId): (r: Melee)
    requires eater in m.ps && victim in m.ps
    ensures r.ps.Keys == m.ps.Keys
    ensures r.ps[eater] == m.ps[eater].(size := m.ps[eater].size + m.ps[victim].size)
    ensures forall s :: s in m.ps && s != eater ==> r.ps[s] == m.ps[s]
    ensures victim in r.removed && r.removed - {victim} == m.removed - {victim}
    ensures |r.eats| == |m.eats| + 1 && r.eats[..|m.eats|] == m.eats
    ensures r.eats[|m.eats|] == Eat(eater, victim, m.ps[eater].size, m.ps[victim].size)
  {
    var a := m.ps[eater];
    var b := m.ps[victim];
    Melee(m.ps[eater := a.(size := a.size + b.size)], m.removed + {victim}, m.eats + [Eat(eater, victim, a.size, b.size)])
  }

  /** One visit of the pair (A, B) = (ids[i], ids[j]) (app.py:169-188): nothing when B
      was already removed, otherwise A eats B, or else B eats A, or else nothing.
      A pair of players still in the game that passes the test in either direction
      always produces exactly that eat; any other visit changes nothing. */
  function Visit(ids: seq<SessionId>, i: nat, j: nat, m: Melee): (r: Melee)
    requires i < |ids| && j < |ids| && Listed(ids, m.ps)
    ensures r.ps.Keys == m.ps.Keys
    ensures ids[j] !in m.removed && Devours(m.ps[ids[i]], m.ps[ids[j]]) ==> r == Feast(m, ids[i], ids[j])
    ensures ids[j] !in m.removed && Devours(m.ps[ids[j]], m.ps[ids[i]]) ==> r == Feast(m, ids[j], ids[i])
    ensures ids[j] in m.removed || !Clash(m.ps, ids[i], ids[j]) ==> r == m
  {
    if ids[j] in m.removed then m
    else
      var a := m.ps[ids[i]];
      var b := m.ps[ids[j]];
      if Devours(a, b) then Feast(m, ids[i], ids[j])
      else if Devours(b, a) then Feast(m, ids[j], ids[i])
      else m
  }

  /** The inner loop (app.py:168-188) for A = ids[i], from B = ids[j] on. A enters
      `players_to_remove` only when B eats it, so stopping as soon as A is removed is
      the `break` of app.py:188. */
  function Pursue(ids: seq<SessionId>, i: nat, j: nat, m: Melee): (r: Melee)
    requires i < |ids| && Listed(ids, m.ps)
    ensures r.ps.Keys == m.ps.Keys
    ensures m.eats <= r.eats
    ensures r == m || |m.eats| < |r.eats|
    decreases |ids| - j
  {
    if j >= |ids| || ids[i] in m.removed then m
    else Pursue(ids, i, j + 1, Visit(ids, i, j, m))
  }

  /** The outer loop (app.py:163-166) from A = ids[i] on. */
  function Fight(ids: seq<SessionId>, i: nat, m: Melee): (r: Melee)
    requires Listed(ids, m.ps)
    ensures r.ps.Keys == m.ps.Keys
    ensures m.eats <= r.eats
    ensures r == m || |m.eats| < |r.eats|
    decreases |ids| - i
  {
    if i >= |ids| then m
    else if ids[i] in m.removed then Fight(ids, i + 1, m)
    else Fight(ids, i + 1, Pursue(ids, i, i + 1, m))
  }

  /** Stage 3 over the table order `ids`, starting with nobody removed. A pass that
      eats nobody changes nothing. */
  function Contest(ids: seq<SessionId>, ps: map<SessionId, Player>): (r: Melee)
    requires Listed(ids, ps)
    ensures r.ps.Keys == ps.Keys
    ensures r.eats == [] ==> r == Melee(ps, {}, [])
  {
    Fight(ids, 0, Melee(ps, {}, []))
  }

  // ---------------------------------------------------------------------------
  // The eat log and what it promises.
  // ---------------------------------------------------------------------------

  /** Total size that `s` gained from the eats in `eats`. */
  function Spoils(eats: seq<Eat>, s: SessionId): real
  {
    if eats == [] then 0.0
    else Spoils(eats[..|eats| - 1], s) + (if eats[|eats| - 1].eater == s then eats[|eats| - 1].victimSize else 0.0)
  }

  /** The players eaten in `eats`. */
  function Victims(eats: seq<Eat>): set<SessionId>
  {
    if eats == [] then {} else Victims(eats[..|eats| - 1]) + {eats[|eats| - 1].victim}
  }

  /** The victims are exactly the players some eat of the log names as victim. */
  lemma {:induction false} VictimsNamed(eats: seq<Eat>, v: SessionId)
    ensures v in Victims(eats) <==> exists k :: 0 <= k < |eats| && eats[k].victim == v
    decreases |eats|
  {
    if eats != [] {
      var prior := eats[..|eats| - 1];
      VictimsNamed(prior, v);
      assert forall k :: 0 <= k < |prior| ==> prior[k] == eats[k];
    }
  }

  /** `e` may follow `prior`: neither player was eaten before, both sizes are the
      starting size plus what each has eaten so far, and with those sizes the eater
      passes the eating test. */
  ghost predicate Lawful(ids: seq<SessionId>, ps0: map<SessionId, Player>, prior: seq<Eat>, e: Eat) {
    && e.eater in ids && e.victim in ids && e.eater != e.victim
    && e.eater in ps0 && e.victim in ps0
    && e.eater !in Victims(prior) && e.victim !in Victims(prior)
    && e.eaterSize == ps0[e.eater].size + Spoils(prior, e.eater)
    && e.victimSize == ps0[e.victim].size + Spoils(prior, e.victim)
    && Devours(ps0[e.eater].(size := e.eaterSize), ps0[e.victim].(size := e.victimSize))
  }

  /** Every eat of the log is lawful after the ones before it. */
  ghost predicate Chronicle(ids: seq<SessionId>, ps0: map<SessionId, Player>, eats: seq<Eat>)
    decreases |eats|
  {
    eats == [] || (Chronicle(ids, ps0, eats[..|eats| - 1]) && Lawful(ids, ps0, eats[..|eats| - 1], eats[|eats| - 1]))
  }

  /** What holds between any two steps of the pass, relative to the starting players `ps0`. */
  ghost predicate Inv(ids: seq<SessionId>, ps0: map<SessionId, Player>, m: Melee) {
    && m.ps.Keys == ps0.Keys
    && (forall s :: s in ps0 ==> m.ps[s] == ps0[s].(size := ps0[s].size + Spoils(m.eats, s)))
    && m.removed == Victims(m.eats)
    && Chronicle(ids, ps0, m.eats)
    && Mass(ids, m.ps, m.removed) == Mass(ids, ps0, {})
  }

  lemma FeastKeepsInv(ids: seq<SessionId>, ps0: map<SessionId, Player>, m: Melee, x: SessionId, y: SessionId)
    requires NoDuplicates(ids) && Listed(ids, ps0) && Inv(ids, ps0, m)
    requires x in ids && y in ids && x != y && x !in m.removed && y !in m.removed
    requires Devours(m.ps[x], m.ps[y])
    ensures Inv(ids, ps0, Feast(m, x, y))
  {
    var m' := Feast(m, x, y);
    var e := Eat(x, y, m.ps[x].size, m.ps[y].size);
    assert m'.eats[..|m'.eats| - 1] == m.eats;
    assert m'.eats[|m'.eats| - 1] == e;
    assert Lawful(ids, ps0, m.eats, e);
    forall s | s in ps0 ensures m'.ps[s] == ps0[s].(size := ps0[s].size + Spoils(m'.eats, s)) {
    }
    var grown := m.ps[x := m'.ps[x]];
    MassChange(ids, m.ps, m.removed, grown, m.removed, x);
    MassChange(ids, grown, m.removed, grown, m.removed + {y}, y);
  }

  /** One visited pair keeps the invariant. */
  lemma VisitKeepsInv(ids: seq<SessionId>, ps0: map<SessionId, Player>, i: nat, j: nat, m: Melee)
    requires NoDuplicates(ids) && Listed(ids, ps0) && Inv(ids, ps0, m)
    requires i < j < |ids| && ids[i] !in m.removed
    ensures Inv(ids, ps0, Visit(ids, i, j, m))
  {
    if ids[j] !in m.removed {
      assert ids[i] != ids[j];
      var a := m.ps[ids[i]];
      var b := m.ps[ids[j]];
      if Devours(a, b) {
        FeastKeepsInv(ids, ps0, m, ids[i], ids[j]);
      } else if Devours(b, a) {
        FeastKeepsInv(ids, ps0, m, ids[j], ids[i]);
      }
    }
  }

  /** Any property of the table that every visit of a pair preserves holds after
      the whole inner loop. */
  lemma {:induction false} PursueKeeps(ids: seq<SessionId>, i: nat, j: nat, m: Melee, P: Melee -> bool)
    requires i < |ids| && Listed(ids, m.ps) && P(m)
    requires forall m': Melee :: P(m') ==> Listed(ids, m'.ps)
    requires forall m': Melee, k: nat :: i < k < |ids| && ids[i] !in m'.removed && P(m') ==> P(Visit(ids, i, k, m'))
    requires i < j
    ensures P(Pursue(ids, i, j, m))
    decreases |ids| - j
  {
    if j < |ids| && ids[i] !in m.removed {
      PursueKeeps(ids, i, j + 1, Visit(ids, i, j, m), P);
    }
  }

  lemma PursueKeepsInv(ids: seq<SessionId>, ps0: map<SessionId, Player>, i: nat, j: nat, m: Melee)
    requires NoDuplicates(ids) && Listed(ids, ps0) && Inv(ids, ps0, m)
    requires i < j && i < |ids|
    ensures Inv(ids, ps0, Pursue(ids, i, j, m))
  {
    forall m': Melee, k: nat | i < k < |ids| && ids[i] !in m'.removed && Inv(ids, ps0, m')
      ensures Inv(ids, ps0, Visit(ids, i, k, m'))
    {
      VisitKeepsInv(ids, ps0, i, k, m');
    }
    PursueKeeps(ids, i, j, m, m' => Inv(ids, ps0, m'));
  }

  lemma {:induction false} FightKeepsInv(ids: seq<SessionId>, ps0: map<SessionId, Player>, i: nat, m: Melee)
    requires NoDuplicates(ids) && Listed(ids, ps0) && Inv(ids, ps0, m)
    ensures Inv(ids, ps0, Fight(ids, i, m))
    decreases |ids| - i
  {
    if i < |ids| {
      if ids[i] in m.removed {
        FightKeepsInv(ids, ps0, i + 1, m);
      } else {
        PursueKeepsInv(ids, ps0, i, i + 1, m);
        FightKeepsInv(ids, ps0, i + 1, Pursue(ids, i, i + 1, m));
      }
    }
  }

  /** Stage 3 as a whole: only sizes change, each player's final size is its starting
      size plus the sizes of the players it ate, the removed players are exactly the
      victims of the log, every eat of the log is lawful, and the total size of the
      players not removed equals the total size before the stage. */
  lemma ContestLaws(ids: seq<SessionId>, ps: map<SessionId, Player>)
    requires NoDuplicates(ids) && Listed(ids, ps)
    ensures var m := Contest(ids, ps);
      && m.ps.Keys == ps.Keys
      && (forall s :: s in ps ==> m.ps[s] == ps[s].(size := ps[s].size + Spoils(m.eats, s)))
      && m.removed == Victims(m.eats)
      && (forall s :: s in m.removed ==> s in ids)
      && Chronicle(ids, ps, m.eats)
      && Mass(ids, m.ps, m.removed) == Mass(ids, ps, {})
  {
    var m0 := Melee(ps, {}, []);
    forall s | s in ps ensures m0.ps[s] == ps[s].(size := ps[s].size + Spoils(m0.eats, s)) {
    }
    MassCongruent(ids, ps, {}, ps, {});
    FightKeepsInv(ids, ps, 0, m0);
    var m := Contest(ids, ps);
    forall s | s in m.removed ensures s in ids {
      VictimsNamed(m.eats, s);
      var k :| 0 <= k < |m.eats| && m.eats[k].victim == s;
      ChronicleAt(ids, ps, m.eats, k);
    }
  }

  /** Each eat of a lawful log is lawful after the eats before it. */
  lemma {:induction false} ChronicleAt(ids: seq<SessionId>, ps0: map<SessionId, Player>, eats: seq<Eat>, k: nat)
    requires Chronicle(ids, ps0, eats) && k < |eats|
    ensures Lawful(ids, ps0, eats[..k], eats[k])
    decreases |eats|
  {
    var prior := eats[..|eats| - 1];
    if k < |eats| - 1 {
      ChronicleAt(ids, ps0, prior, k);
      assert prior[..k] == eats[..k];
      assert prior[k] == eats[k];
    }
  }

  /** Eat-ratio law: in every eat the eater, at its size at that moment (including
      what it ate earlier in the pass), is more than EAT_RATIO times the victim and
      close enough; afterwards it has grown by exactly the victim's size. */
  lemma EatLaw(ids: seq<SessionId>, ps: map<SessionId, Player>)
    requires NoDuplicates(ids) && Listed(ids, ps)
    ensures var m := Contest(ids, ps);
      forall k :: 0 <= k < |m.eats| ==>
        && m.eats[k].eater in ps && m.eats[k].victim in ps
        && m.eats[k].eaterSize > m.eats[k].victimSize * EatRatio
        && Devours(ps[m.eats[k].eater].(size := m.eats[k].eaterSize), ps[m.eats[k].victim].(size := m.eats[k].victimSize))
        && m.eats[k].eaterSize == ps[m.eats[k].eater].size + Spoils(m.eats[..k], m.eats[k].eater)
        && Spoils(m.eats[..k + 1], m.eats[k].eater) == Spoils(m.eats[..k], m.eats[k].eater) + m.eats[k].victimSize
  {
    ContestLaws(ids, ps);
    var m := Contest(ids, ps);
    forall k | 0 <= k < |m.eats| {
      EatLawAt(ids, ps, m.eats, k);
    }
  }

  /** The eat-ratio law for the k-th eat of any lawful log. */
  lemma EatLawAt(ids: seq<SessionId>, ps0: map<SessionId, Player>, eats: seq<Eat>, k: nat)
    requires Chronicle(ids, ps0, eats) && k < |eats|
    ensures && eats[k].eater in ps0 && eats[k].victim in ps0
            && eats[k].eaterSize > eats[k].victimSize * EatRatio
            && Devours(ps0[eats[k].eater].(size := eats[k].eaterSize), ps0[eats[k].victim].(size := eats[k].victimSize))
            && eats[k].eaterSize == ps0[eats[k].eater].size + Spoils(eats[..k], eats[k].eater)
            && Spoils(eats[..k + 1], eats[k].eater) == Spoils(eats[..k], eats[k].eater) + eats[k].victimSize
  {
    ChronicleAt(ids, ps0, eats, k);
    assert eats[..k + 1][..k] == eats[..k];
  }

  /** Once removed, never again at the table: no player is eaten twice, and no
      removed player eats afterwards. */
  lemma EatenOnce(ids: seq<SessionId>, ps: map<SessionId, Player>)
    requires NoDuplicates(ids) && Listed(ids, ps)
    ensures var m := Contest(ids, ps);
      forall k, l :: 0 <= k < l < |m.eats| ==>
        m.eats[l].victim != m.eats[k].victim && m.eats[l].eater != m.eats[k].victim
  {
    ContestLaws(ids, ps);
    var m := Contest(ids, ps);
    forall k, l | 0 <= k < l < |m.eats|
      ensures m.eats[l].victim != m.eats[k].victim && m.eats[l].eater != m.eats[k].victim
    {
      ChronicleAt(ids, ps, m.eats, l);
      assert m.eats[..l][k] == m.eats[k];
      VictimsNamed(m.eats[..l], m.eats[k].victim);
    }
  }

  /** With positive sizes, nobody gains a negative amount. */
  lemma {:induction false} SpoilsNonNegative(ids: seq<SessionId>, ps0: map<SessionId, Player>, eats: seq<Eat>, s: SessionId)
    requires PositiveSizes(ps0) && Chronicle(ids, ps0, eats)
    ensures 0.0 <= Spoils(eats, s)
    decreases |eats|
  {
    if eats != [] {
      var prior := eats[..|eats| - 1];
      var last := eats[|eats| - 1];
      SpoilsNonNegative(ids, ps0, prior, s);
      SpoilsNonNegative(ids, ps0, prior, last.victim);
    }
  }

  /** Stage 3 never shrinks anybody. */
  lemma ContestNeverShrinks(ids: seq<SessionId>, ps: map<SessionId, Player>)
    requires NoDuplicates(ids) && Listed(ids, ps) && PositiveSizes(ps)
    ensures forall s :: s in ps ==> s in Contest(ids, ps).ps && ps[s].size <= Contest(ids, ps).ps[s].size
  {
    ContestLaws(ids, ps);
    var m := Contest(ids, ps);
    forall s | s in ps ensures ps[s].size <= m.ps[s].size {
      SpoilsNonNegative(ids, ps, m.eats, s);
    }
  }

  // ---------------------------------------------------------------------------
  // The other direction: a pair that passes the test when it is visited eats.
  // ---------------------------------------------------------------------------

  /** The inner loop for A = ids[i] changes nothing exactly when no B from ids[j] on
      that is still in the game can eat A or be eaten by it. */
  lemma {:induction false} PursueQuiet(ids: seq<SessionId>, i: nat, j: nat, m: Melee)
    requires i < j && i < |ids| && Listed(ids, m.ps) && ids[i] !in m.removed
    ensures Pursue(ids, i, j, m) == m <==>
              forall k :: j <= k < |ids| && ids[k] !in m.removed ==> !Clash(m.ps, ids[i], ids[k])
    decreases |ids| - j
  {
    if j < |ids| {
      if Visit(ids, i, j, m) == m {
        PursueQuiet(ids, i, j + 1, m);
      } else {
        assert ids[j] !in m.removed && Clash(m.ps, ids[i], ids[j]);
      }
    }
  }

  /** The pass from A = ids[i] on changes nothing exactly when no two players still in
      the game, the first at position i or later and the second after it, pass the
      test. */
  lemma {:induction false} FightQuiet(ids: seq<SessionId>, i: nat, m: Melee)
    requires Listed(ids, m.ps)
    ensures Fight(ids, i, m) == m <==>
              forall a, b :: i <= a < b < |ids| && ids[a] !in m.removed && ids[b] !in m.removed ==> !Clash(m.ps, ids[a], ids[b])
    decreases |ids| - i
  {
    if i < |ids| {
      FightQuiet(ids, i + 1, m);
      if ids[i] !in m.removed {
        PursueQuiet(ids, i, i + 1, m);
      }
    }
  }

  /** Stage 3 eats nobody exactly when no pair of the table passes the test, in
      either direction, at the starting sizes. */
  lemma ContestQuiet(ids: seq<SessionId>, ps: map<SessionId, Player>)
    requires Listed(ids, ps)
    ensures Contest(ids, ps).eats == [] <==> forall a, b :: 0 <= a < b < |ids| ==> !Clash(ps, ids[a], ids[b])
  {
    FightQuiet(ids, 0, Melee(ps, {}, []));
  }

  /** Visits of pairs that do not pass the test can be skipped. */
  lemma {:induction false} PursueSkip(ids: seq<SessionId>, i: nat, j: nat, n: nat, m: Melee)
    requires i < j <= n <= |ids| && Listed(ids, m.ps)
    requires forall k :: j <= k < n && ids[k] !in m.removed ==> !Clash(m.ps, ids[i], ids[k])
    ensures Pursue(ids, i, j, m) == Pursue(ids, i, n, m)
    decreases n - j
  {
    if j < n {
      assert Visit(ids, i, j, m) == m;
      PursueSkip(ids, i, j + 1, n, m);
    }
  }

  /** Turns of players that meet nobody they can eat or be eaten by can be skipped. */
  lemma {:induction false} FightSkip(ids: seq<SessionId>, i: nat, n: nat, m: Melee)
    requires i <= n <= |ids| && Listed(ids, m.ps)
    requires forall a, b :: i <= a < n && a < b < |ids| && ids[a] !in m.removed && ids[b] !in m.removed ==> !Clash(m.ps, ids[a], ids[b])
    ensures Fight(ids, i, m) == Fight(ids, n, m)
    decreases n - i
  {
    if i < n {
      if ids[i] !in m.removed {
        PursueQuiet(ids, i, i + 1, m);
      }
      FightSkip(ids, i + 1, n, m);
    }
  }

  /** The first eat of Stage 3 is at the first pair (i, j), in visiting order, that
      passes the test at the starting sizes: A eats B when A can, otherwise B eats
      A, each at its starting size. */
  lemma ContestFirstEat(ids: seq<SessionId>, ps: map<SessionId, Player>, i: nat, j: nat)
    requires Listed(ids, ps) && i < j < |ids| && Clash(ps, ids[i], ids[j])
    requires forall a, b :: 0 <= a < b < |ids| && (a < i || (a == i && b < j)) ==> !Clash(ps, ids[a], ids[b])
    ensures var eats := Contest(ids, ps).eats;
      && eats != []
      && eats[0] == if Devours(ps[ids[i]], ps[ids[j]]) then Eat(ids[i], ids[j], ps[ids[i]].size, ps[ids[j]].size)
                    else Eat(ids[j], ids[i], ps[ids[j]].size, ps[ids[i]].size)
  {
    var m0 := Melee(ps, {}, []);
    FightSkip(ids, 0, i, m0);
    PursueSkip(ids, i, i + 1, j, m0);
    var v := Visit(ids, i, j, m0);
    assert Pursue(ids, i, j, m0) == Pursue(ids, i, j + 1, v);
    var p := Pursue(ids, i, i + 1, m0);
    assert Fight(ids, i, m0) == Fight(ids, i + 1, p);
    assert v.eats[..1] <= p.eats;
  }
}

=== FILE: rosters.dfy ===
/** The `players` dictionary of the source (app.py:24). A Python dictionary
    remembers insertion order, and the tick stages iterate in that order, so the
    table is a map together with the sequence of its keys: assigning to an
    existing key keeps its place, a new key goes last, and `pop` drops it. */
module Rosters {
  import opened Entities

  datatype Roster = Roster(entries: map<SessionId, Player>, order: seq<SessionId>)

  /** `order` lists every key exactly once, and every entry is filed under its own id. */
  predicate Valid(r: Roster) {
    && NoDuplicates(r.order)
    && (forall s :: s in r.entries ==> s in r.order)
    && (forall s :: s in r.order ==> s in r.entries)
    && (forall s :: s in r.entries ==> r.entries[s].id == s)
  }

  /** Total size of all players. */
  function RosterMass(r: Roster): real {
    Mass(r.order, r.entries, {})
  }

  /** `ids` with the members of `gone` dropped, the rest kept in order. */
  function Without(ids: seq<SessionId>, gone: set<SessionId>): (r: seq<SessionId>)
    ensures forall s :: s in r <==> s in ids && s !in gone
    ensures NoDuplicates(ids) ==> NoDuplicates(r)
    ensures (forall s :: s in ids ==> s !in gone) ==> r == ids
  {
    if ids == [] then []
    else
      var rest := Without(ids[1..], gone);
      assert NoDuplicates(ids) ==> NoDuplicates(ids[1..]) by {
        if NoDuplicates(ids) { NoDuplicatesTail(ids); }
      }
      assert ids == [ids[0]] + ids[1..];
      if ids[0] in gone then rest else [ids[0]] + rest
  }

  /** Dropping `a` and then `b` is dropping both at once. */
  lemma {:induction false} WithoutTwice(ids: seq<SessionId>, a: set<SessionId>, b: set<SessionId>)
    ensures Without(Without(ids, a), b) == Without(ids, a + b)
  {
    if ids != [] {
      WithoutTwice(ids[1..], a, b);
    }
  }

  /** `players[p.id] = p` (app.py:94). */
  function Put(r: Roster, p: Player): (r': Roster)
    ensures p.id in r'.entries && r'.entries[p.id] == p
    ensures forall s :: s != p.id ==> (s in r'.entries <==> s in r.entries)
    ensures forall s :: s != p.id && s in r.entries ==> r'.entries[s] == r.entries[s]
    ensures p.id in r.entries ==> r'.order == r.order
    ensures p.id !in r.entries ==> r'.order == r.order + [p.id]
    ensures Valid(r) ==> Valid(r')
  {
    var order := if p.id in r.entries then r.order else r.order + [p.id];
    var r' := Roster(r.entries[p.id := p], order);
    assert Valid(r) ==> Valid(r') by {
      if Valid(r) && p.id !in r.entries {
        forall i, j | 0 <= i < j < |order| ensures order[i] != order[j] {
          if j == |r.order| {
            assert order[i] == r.order[i];
          }
        }
      }
    }
    r'
  }

  /** `players.pop(s, None)` (app.py:71, 193): removes `s` when present, otherwise changes nothing. */
  function Pop(r: Roster, s: SessionId): (r': Roster)
    ensures s !in r'.entries
    ensures forall t :: t != s ==> (t in r'.entries <==> t in r.entries)
    ensures forall t :: t != s && t in r.entries ==> r'.entries[t] == r.entries[t]
    ensures s !in r.entries ==> r' == r
    ensures Valid(r) ==> Valid(r') && r'.order == Without(r.order, {s})
  {
    if s in r.entries then Roster(r.entries - {s}, Without(r.order, {s})) else r
  }

  /** Every session in `gone` removed at once, the rest of the table untouched. */
  function RemoveAll(r: Roster, gone: set<SessionId>): (r': Roster)
    ensures forall t :: t in r'.entries <==> t in r.entries && t !in gone
    ensures forall t :: t in r'.entries ==> r'.entries[t] == r.entries[t]
    ensures Valid(r) ==> Valid(r')
  {
    Roster(r.entries - gone, Without(r.order, gone))
  }

  /** The loop `for sid in players_to_remove: players.pop(sid, None)` (app.py:192-193)
      for the iteration order `ss` of the set. */
  function PopEach(r: Roster, ss: seq<SessionId>): (r': Roster)
    ensures forall t :: t in r'.entries <==> t in r.entries && t !in ss
    ensures forall t :: t in r'.entries ==> r'.entries[t] == r.entries[t]
    ensures Valid(r) ==> Valid(r')
    decreases |ss|
  {
    if ss == [] then r else PopEach(Pop(r, ss[0]), ss[1..])
  }

  /** Map subtraction laws used when the eaten players are removed. */
  lemma MinusLaws<K, V>(m: map<K, V>, a: set<K>, b: set<K>)
    ensures m - a - b == m - (a + b)
    ensures (forall k :: k in a ==> k !in m) ==> m - b == m - (a + b)
    ensures m - {} == m
  {
  }

  /** Popping one session and then removing a set is removing both. */
  lemma PopThenRemove(r: Roster, a: SessionId, gone: set<SessionId>)
    requires a in r.order ==> a in r.entries
    ensures RemoveAll(Pop(r, a), gone) == RemoveAll(r, {a} + gone)
  {
    WithoutTwice(r.order, {a}, gone);
    if a in r.entries {
      MinusLaws(r.entries, {a}, gone);
    } else {
      assert Without(r.order, {a}) == r.order;
      MinusLaws(r.entries, {a}, gone);
    }
  }

  /** Whatever order the set of eaten players is iterated in, popping them one by one
      leaves exactly the table without them. */
  lemma {:induction false} PopEachIsRemoveAll(r: Roster, ss: seq<SessionId>)
    requires Valid(r)
    ensures PopEach(r, ss) == RemoveAll(r, set s | s in ss)
    decreases |ss|
  {
    if ss == [] {
      MinusLaws(r.entries, {}, {});
      assert Without(r.order, {}) == r.order;
    } else {
      var tail := set s | s in ss[1..];
      var r1 := Pop(r, ss[0]);
      assert PopEach(r, ss) == PopEach(r1, ss[1..]);
      PopEachIsRemoveAll(r1, ss[1..]);
      PopThenRemove(r, ss[0], tail);
      assert (set s | s in ss) == {ss[0]} + tail;
    }
  }

  /** Removing the eaten players keeps the mass of everyone else. */
  lemma {:induction false} MassAfterRemoval(ids: seq<SessionId>, ps: map<SessionId, Player>, gone: set<SessionId>)
    ensures Mass(Without(ids, gone), ps - gone, {}) == Mass(ids, ps, gone)
  {
    if ids != [] {
      MassAfterRemoval(ids[1..], ps, gone);
    }
  }
}

=== FILE: scenarios.dfy ===
/** Small worked situations, each a lemma about concrete players and pellets. */
module Scenarios {
  import opened Config
  import opened Entities
  import opened Movement
  import opened Grazing
  import opened Predation

  function Blob(id: SessionId, x: real, y: real, size: real): Player {
    Player(id, "Blob", x, y, size, "hsl(0, 70%, 50%)", 0.0, 0.0)
  }

  function Pellet(x: real, y: real): Food {
    Food(10000, x, y, FoodSize, "hsl(0, 70%, 50%)")
  }

  /** A player of size 20 on top of a pellet eats it and reaches size 21.6. */
  lemma PelletEaten()
    ensures var ps := map["a" := Blob("a", 100.0, 100.0, 20.0)];
      var r := Graze(["a"], 0, ps, [Pellet(100.0, 100.0)], {});
      r.ps["a"].size == 21.6 && r.eaten == {0}
  {
    var p := Blob("a", 100.0, 100.0, 20.0);
    var food := [Pellet(100.0, 100.0)];
    assert Reaches(p, food[0]);
    var g := GrazeFrom(p, food, 0, Pasture(20.0, {}));
    assert g == GrazeFrom(p, food, 1, Pasture(21.6, {0}));
  }

  /** Eating a pellet can push a player that was touching the edge off the map: the
      clamp of Stage 1 is not repeated after growth. */
  lemma GrowthLeavesMap()
    ensures var ps := map["a" := Blob("a", 10.0, 100.0, 20.0)];
      && InBounds(ps["a"])
      && !InBounds(Graze(["a"], 0, ps, [Pellet(10.0, 100.0)], {}).ps["a"])
  {
    var p := Blob("a", 10.0, 100.0, 20.0);
    var food := [Pellet(10.0, 100.0)];
    assert Reaches(p, food[0]);
    var g := GrazeFrom(p, food, 0, Pasture(20.0, {}));
    assert g == GrazeFrom(p, food, 1, Pasture(21.6, {0}));
  }

  /** A player of size 100 eats one of size 50 twenty units away and reaches 150. */
  lemma LargerEatsSmaller()
    ensures var ps := map["a" := Blob("a", 100.0, 100.0, 100.0), "b" := Blob("b", 120.0, 100.0, 50.0)];
      var m := Contest(["a", "b"], ps);
      m.ps["a"].size == 150.0 && m.removed == {"b"}
  {
    var ps := map["a" := Blob("a", 100.0, 100.0, 100.0), "b" := Blob("b", 120.0, 100.0, 50.0)];
    assert Devours(ps["a"], ps["b"]);
    var m1 := Feast(Melee(ps, {}, []), "a", "b");
    assert Pursue(["a", "b"], 0, 1, Melee(ps, {}, [])) == m1;
    assert Fight(["a", "b"], 1, m1) == m1;
  }

  /** Two players of equal size, wherever they stand: neither is 1.1 times the
      other, so Stage 3 leaves the table as it was. */
  lemma EqualsDoNotEat(ps: map<SessionId, Player>, a: SessionId, b: SessionId)
    requires a in ps && b in ps && ps[a].size == ps[b].size
    ensures !Devours(ps[a], ps[b]) && !Devours(ps[b], ps[a])
    ensures Contest([a, b], ps) == Melee(ps, {}, [])
  {
    var m0 := Melee(ps, {}, []);
    assert Pursue([a, b], 0, 1, m0) == m0;
    assert Fight([a, b], 1, m0) == m0;
  }

  /** Growth is visible within the pass: A (100) eats B (50) and then, at 150, eats
      C (130), which it could not have eaten at 100. */
  lemma GrowthFeedsTheChain()
    ensures var ps := map["a" := Blob("a", 500.0, 500.0, 100.0), "b" := Blob("b", 510.0, 500.0, 50.0), "c" := Blob("c", 520.0, 500.0, 130.0)];
      var m := Contest(["a", "b", "c"], ps);
      && !Devours(ps["a"], ps["c"])
      && m.ps["a"].size == 280.0 && m.removed == {"b", "c"}
  {
    var ids := ["a", "b", "c"];
    var ps := map["a" := Blob("a", 500.0, 500.0, 100.0), "b" := Blob("b", 510.0, 500.0, 50.0), "c" := Blob("c", 520.0, 500.0, 130.0)];
    var m0 := Melee(ps, {}, []);
    assert Devours(ps["a"], ps["b"]);
    var m1 := Feast(m0, "a", "b");
    assert Devours(m1.ps["a"], m1.ps["c"]);
    var m2 := Feast(m1, "a", "c");
    assert Visit(ids, 0, 1, m0) == m1;
    assert Visit(ids, 0, 2, m1) == m2;
    assert Pursue(ids, 0, 3, m2) == m2;
    assert Pursue(ids, 0, 1, m0) == m2;
    assert Fight(ids, 1, m2) == m2;
  }

  /** A target vector (10, 0) moves a player of size 20 in the middle of the map by
      exactly its speed along x. */
  lemma StraightRun(norm: (real, real) -> real, log1p: real -> real)
    requires norm(10.0, 0.0) == 10.0 && PositiveOnPositives(log1p)
    ensures var p := Blob("a", 1000.0, 1000.0, 20.0).(targetX := 10.0);
      var q := Step(p, norm, log1p);
      q.x == 1000.0 + Speed(log1p, 20.0) && q.y == 1000.0
  {
    var p := Blob("a", 1000.0, 1000.0, 20.0).(targetX := 10.0);
    assert Heading(norm, 10.0, 0.0) == (1.0, 0.0);
  }
}
